=== FILE: README.md ===
# OEE timeseries pipeline and REST front-fill, modelled in Dafny

This project models two parts of the system.

The first is the OEE (overall equipment effectiveness) pipeline of `oee_timeseries`. For one site it:

- reads per-minute `count`, `good`, `status` and `planned_status` aggregates for every equipment item;
- rebuilds the sparse status signals into a dense minute grid (`discover_datapoints`);
- checks the array lengths;
- computes trailing rolling sums over `window_size` minutes;
- derives five metric series per item: off-spec, quality, performance, availability and OEE;
- upserts them: missing output series are created with a readable name, and every batch is appended in one call (`insert_datapoints`).

The scalar helpers of `calculations.py` are modelled beside it.

The second part is the front-fill loop of the REST extractor. `Streamer._extract_timeseries` walks the look-back window up to `to_time` in contiguous chunks of at most `min(3600, lookback_min)` minutes. It puts every series the API returns into the upload queue.

Conventions:

- Timestamps are integer milliseconds.
- `floor_min(t)` is `t - t % 60000` (`Samples.FloorMinute`).
- Metric values are `real`, so there is no floating-point rounding.
- The store is an abstract class. It holds a set of series descriptors (external id, name, type, data set) and the sequence of records appended to it.
- The API of the extractor is an oracle function.
- `now`, `to_time`, the retrieved aggregates and the carry-in samples are parameters.

Modules, one per file:

| file | module | models |
|---|---|---|
| wrappers.dfy | Wrappers | `Option`, `Result` |
| keyed.dfy | Keyed | the last occurrence of a key, shared by the dict builds of `discover_datapoints` and `create_ext_id_asset_pairs` |
| samples.dfy | Samples | samples, minute flooring, Python `range`, stable `sorted` by timestamp |
| names.dfy | Names | `translate_to_a_name` |
| gapfill.dfy | GapFill | `discover_datapoints` after the store reads |
| upsert.dfy | Upsert | the store and `insert_datapoints` |
| metrics.dfy | Metrics | rolling sums, the five metric arrays, `get_payload`, the equipment set |
| handler.dfy | Handler | the item loop and the five upserts of `process_site`, the range arithmetic of `handle` |
| calculations.dfy | Calculations | `split_and_join`, `create_ext_id_asset_pairs`, the `safe_divide` ratios and runtimes |
| streamer.dfy | Streamer | `Streamer.__init__` and `_extract_timeseries` |

Some behaviours of the code are easy to misread. The model follows the code as written:

- **Gap filling: tail of the grid.** A minute at or after the last known sample takes the *first* known value. That is the default of `next(...)`, tools.py:91.
- **Gap filling: head of the grid.** A minute before the first known sample takes the *last* value, through Python's index -1. It does not hold the earliest value.
- **Gap filling: no carry-in.** Without a carry-in sample every grid value is 0.0, even when the window holds samples.
- **Gap filling: end minute.** The grid runs from the minute of the window start to the minute of the window end, both included. The day ranges `handle` builds with `Arrow.span_range` start on a whole minute and end just before one. For them `floor(end)` is the last minute inside the range, so the grid has exactly `lookback + window_size` points and the length checks pass (`Handler.UnitLookbackSpanEnd`, `Handler.SpanEndGridPassesCheck`). Only a window that ends exactly on a minute gets one point more than it has minutes (`GapFill.AlignedGridIncludesEnd`). For such a window the length check rejects every item whose count series has at most one bucket per minute (`Handler.AlignedStatusGridFailsCheck`).
- **Zero denominators.** Ratios fall back to 0 only for a zero denominator (`where=den != 0`, `ZeroDivisionError`). A negative denominator is divided by.
- **Quality and OEE.** Quality is per minute, not over the rolling window. The OEE multiplies rolling performance and availability by that per-minute quality.
- **New series metadata.** New series carry only `{type}` metadata and the data set.
- **Retries.** There is no per-unit retry.

## Model

| member | source | states |
|---|---|---|
| `Names.Split` | oee_timeseries/tools.py:17 | splitting on `:`/`_` gives at least one segment, and no segment contains a separator |
| `Names.TranslateToAName` | oee_timeseries/tools.py:16-19 | `re.split(":|_")`, title-case every segment after the first, join with spaces; it has no contract of its own, and `Names.TranslateToANameIsScan`, `Names.NameShape`, `Names.NameKeepsFirstSegment` and `Names.NameAt` state what it returns |
| `Names.TranslateToANameIsScan` | oee_timeseries/tools.py:16-19 | split, title-case later segments and join with spaces equals an independent character-by-character scan of the id |
| `Names.NameShape` | oee_timeseries/tools.py:16-19 | for ASCII case mapping: the name has the id's length, contains no `:` or `_`, and has a space exactly where the id has a separator |
| `Names.NameKeepsFirstSegment` | oee_timeseries/tools.py:17-19 | the name is the first segment verbatim followed by `" " + title(segment)` for each later segment |
| `Names.NameAt` | oee_timeseries/tools.py:17-19 | for ASCII case mapping, per character: separators become spaces, characters before the first separator are copied, a later letter is upper-cased iff the character before it is not a letter and lower-cased otherwise |
| `Samples.FloorMinute` | oee_timeseries/tools.py:94 | the result is a whole minute and the largest whole minute not after `t` |
| `Samples.FloorMinuteShift` | oee_timeseries/handler.py:24-25 | shifting by k minutes and flooring equals flooring and shifting by k minutes |
| `Samples.MinuteRange` | oee_timeseries/tools.py:93-97 | `range(lo, hi, 60000)`: element k is `lo + k*60000`, every element is below `hi`, and the count is the ceiling of `(hi-lo)/60000` (0 when `hi <= lo`) |
| `Samples.SortByTs` | oee_timeseries/tools.py:72 | `sorted(..., key=lambda x: x[0])` as a stable insertion sort; `Samples.SortByTsSpec` and `Samples.SortSortedIsIdentity` state what it returns |
| `Samples.SortByTsSpec` | oee_timeseries/tools.py:72 | `sorted(..., key=timestamp)` returns a timestamp-ordered permutation of its input |
| `Samples.SortSortedIsIdentity` | oee_timeseries/tools.py:87-99 | sorting an already ordered list returns it unchanged |
| `Samples.Values` | oee_timeseries/handler.py:81-84 | `[:, 1]` keeps the length and takes each sample's value |
| `GapFill.Collect` | oee_timeseries/tools.py:71-72 | the dict the first loop builds; `GapFill.CollectKeys` and `GapFill.CollectLastWins` state its keys and values |
| `GapFill.CollectKeys` | oee_timeseries/tools.py:71-72 | the first loop's dict has exactly the retrieved ids as keys |
| `GapFill.CollectLastWins` | oee_timeseries/tools.py:71-72 | an id retrieved twice keeps its last retrieval, sorted by timestamp |
| `GapFill.KnownList` | oee_timeseries/tools.py:80-85 | the known list is `[(start, 0.0)]` without a carry-in, and otherwise the carry-in followed by the sorted window samples |
| `GapFill.FirstAbove` | oee_timeseries/tools.py:91 | the index of the first known sample later than the minute, or the length when there is none |
| `GapFill.LookupValue` | oee_timeseries/tools.py:91 | the `next(...)` lookup of one grid minute, index -1 and the default included; `GapFill.LookupStepHold` states its value |
| `GapFill.LookupStepHold` | oee_timeseries/tools.py:91 | over a sorted known list, a minute between two samples takes the earlier one's value, a minute before the first takes the last value (index -1), and a minute at or after the last takes the first value (`next` default) |
| `GapFill.MinuteGridShape` | oee_timeseries/tools.py:93-97 | the grid is the minutes `floor(start) + i*60000` for i below `GridCount` |
| `GapFill.GridSamplesShape` | oee_timeseries/tools.py:88-98 | the comprehension yields `GridCount` strictly increasing samples, sample i being minute i with its looked-up value |
| `GapFill.GridEndsAtEnd` | oee_timeseries/tools.py:94-95 | the last grid minute is `floor(end)` |
| `GapFill.FillGridShape` | oee_timeseries/tools.py:87-100 | a status series becomes exactly `(floor(end)-floor(start))/60000 + 1` strictly increasing samples from `floor(start)` to `floor(end)`, each holding the looked-up value |
| `GapFill.NoCarryInMeansZero` | oee_timeseries/tools.py:80-91 | without a carry-in every grid value is 0.0, whatever the window holds |
| `GapFill.AlignedGridIncludesEnd` | oee_timeseries/tools.py:93-96 | for minute-aligned ends the grid has `(end-start)/60000 + 1` points |
| `GapFill.SpanEndGrid` | oee_timeseries/tools.py:93-96 | for a window ending just before a whole minute the grid has one point per minute of the window, `(end-start)/60000` |
| `GapFill.Discovered` | oee_timeseries/tools.py:71-100 | the dict `discover_datapoints` returns; `GapFill.DiscoveredKeys`, `GapFill.NonStatusSorted` and `GapFill.StatusFilled` state its keys and each entry, and `GapFill.DiscoverDatapoints` computes it |
| `GapFill.DiscoverDatapoints` | oee_timeseries/tools.py:62-102 | the two loops, updating the dict in place, return exactly `Discovered`: sorted retrievals with status entries replaced by their grid |
| `GapFill.NonStatusSorted` | oee_timeseries/tools.py:71-77 | a non-status series comes back as its retrieved samples, ordered by timestamp and otherwise untouched (same multiset) |
| `GapFill.StatusFilled` | oee_timeseries/tools.py:76-100 | a status series comes back as the minute grid over its known list: `GridCount` strictly increasing minutes, each with the lookup value |
| `GapFill.DiscoveredKeys` | oee_timeseries/tools.py:71-100 | the result has exactly the retrieved ids as keys |
| `Upsert.MissingIds` | oee_timeseries/tools.py:30-32 | an id is missing iff the batch references it and it is not listed |
| `Upsert.NewSeries` | oee_timeseries/tools.py:34-42 | one descriptor per missing id, named by `translate_to_a_name`, typed `typ`, in the data set, with unique ids |
| `Upsert.CreatedSeriesAreListed` | oee_timeseries/tools.py:28-45 | after creating the missing series, the listed ids are the old ones plus the missing ones, every referenced id is listed, and nothing is missing any more |
| `Upsert.Store.Create` | oee_timeseries/tools.py:45 | the store accepts a creation iff the new ids are unique and not yet taken, and then adds exactly that batch |
| `Upsert.Store.InsertMultiple` | oee_timeseries/tools.py:49 | the store accepts an insert iff every referenced series exists, and then appends the whole batch |
| `Upsert.InsertDatapoints` | oee_timeseries/tools.py:22-50 | the store refuses the call iff an id it would create is already taken; otherwise it creates exactly the missing series (none when none is missing), so the new ids are exactly the missing ones, then appends the whole batch, after which every referenced id is listed under the type; a refusal leaves the store unchanged |
| `Upsert.InsertTwiceCreatesNothing` | oee_timeseries/tools.py:22-50 | when a call succeeds, repeating it with the same batch succeeds too, leaves the series as they were and appends the batch once more |
| `Metrics.ValidConvolve` | oee_timeseries/handler.py:101 | `convolve(x, ones(w), "valid")` has `len(x) - w + 1` entries |
| `Metrics.RollingSums` | oee_timeseries/handler.py:101-104 | dropping the first full-window sum leaves `len(x) - w` entries |
| `Metrics.RollingSumsArePrefixDifferences` | oee_timeseries/handler.py:101-104 | entry j is `x[j+1] + ... + x[j+w]`, the trailing window ending at index `j+w` |
| `Metrics.RollingSumsSlide` | oee_timeseries/handler.py:101-104 | consecutive entries differ by the sample entering minus the sample leaving the window |
| `Metrics.Ratio` | oee_timeseries/handler.py:124-125 | `np.divide(..., where=den != 0)` over zeros: 0 for a zero denominator, otherwise the quotient |
| `Metrics.ComputeItem` | oee_timeseries/handler.py:86-145 | succeeds iff the four arrays have one common length equal to `lookback + window_size`, with a window of at least 1 and `lookback >= 0`; different lengths give the first error; on success every metric array has `lookback` entries |
| `Metrics.MetricsAt` | oee_timeseries/handler.py:99-145 | entry j of the five arrays is off-spec and quality at index `w+j`, performance and availability from the window sums ending at `w+j`, and the OEE as their product with that quality |
| `Metrics.MinuteInRange` | oee_timeseries/handler.py:99-145 | for `0 <= good <= count` and `0 <= status <= planned`: off-spec is non-negative, quality and availability are in [0, 1], performance is non-negative, and OEE is between 0 and performance |
| `Metrics.ConstantSignals` | oee_timeseries/handler.py:99-145 | constant count c > 0, good g and full status give off-spec `c-g`, quality `g/c`, performance `c/20`, availability 1 and OEE `g/20` |
| `Metrics.GetPayload` | oee_timeseries/handler.py:19-29 | `lookback` pairs (none when `lookback <= 0`); pair i is `(floor(now) - (lookback-1-i) minutes, collection[i])`, so the last is at `floor(now)` |
| `Metrics.BeforeColon` | oee_timeseries/handler.py:74 | `split(":")[0]`: the longest prefix without `:`, followed in the id by `:` when shorter |
| `Metrics.Equipment` | oee_timeseries/handler.py:74 | the equipment set is exactly the prefixes of the discovered ids |
| `Handler.ItemResult` | oee_timeseries/handler.py:81-145 | one item's metrics: `MissingSeries` when one of its four series is missing or empty (`Handler.Column`), otherwise `Metrics.ComputeItem` over their value columns; `Handler.BuildBatches` and `Handler.ProcessSite` state their results through it |
| `Handler.Column` | oee_timeseries/handler.py:81-84 | a series' value column exists iff the key is present and non-empty, and otherwise is a `MissingSeries` failure |
| `Handler.ItemRecord` | oee_timeseries/handler.py:106-153 | the record of metric k of an item is written to `<item><suffix of k>`, the suffix `Handler.Suffix` defines once |
| `Handler.RecordIds` | oee_timeseries/handler.py:106-153 | a metric batch writes exactly the ids `<item><suffix>`, one per item, all distinct |
| `Handler.VisitStep` | oee_timeseries/handler.py:80-153 | one loop iteration appends the item's five records and keeps the visited and remaining items a partition of the equipment |
| `Handler.AllVisited` | oee_timeseries/handler.py:80-153 | when no item remains, every equipment item was visited exactly once and computed successfully |
| `Handler.BuildBatches` | oee_timeseries/handler.py:80-153 | succeeds iff every equipment item's series compute; a failure is the error of some item; on success each of the five batches holds one record per equipment item, each item once, built from that item's metrics |
| `Handler.UpsertBatches` | oee_timeseries/handler.py:154-158 | the five upserts in the order performance, quality, availability, off-spec, OEE, proved equal to `Handler.UpsertsFrom` from position 0: the series only grow, and every series added is one an upsert of these batches creates (in the data set, named by `translate_to_a_name`, of a type whose batch references its id); all five succeed iff the batches are writable in the store as it was (an id already held is listed under its batch's type, and no id is in two batches); on success the batches are appended in that order and every id is listed under its type; on a refusal the records held are the old ones followed by the batches of the calls before it, in order |
| `Handler.InsertBatch` | oee_timeseries/handler.py:154-158 | one of the five calls, with the exact new store on both outcomes: the store refuses the batch of metric k iff an id it would create is taken, and is then unchanged; otherwise the series grow by exactly the new descriptors of the missing ids, the batch is appended and its ids are listed under the type of k |
| `Handler.UpsertsFromSpec` | oee_timeseries/handler.py:154-158 | the upserts from position n on, after the first n went through: they all go through iff the batches were writable from the start, and then all five are appended in order and listed under their types; a refusal leaves the batches of the calls before it appended; the series only grow, keep unique ids and gain only series the batches create |
| `Handler.CreatedStep` | oee_timeseries/tools.py:34-47 | creating the missing series of one batch adds only series that batch calls for |
| `Handler.AppendedFields` | oee_timeseries/handler.py:154-158 | the records of all five calls, in call order, are performance, quality, availability, off-spec and OEE |
| `Handler.NotYetDone` | oee_timeseries/handler.py:154-158 | each of the five calls writes a metric none of the earlier calls wrote |
| `Handler.TypedBatchOf` | oee_timeseries/handler.py:154-158 | the batch written under the type of metric k is the batch of k |
| `Upsert.AcceptedSeries` | oee_timeseries/tools.py:22-50 | a call that goes through adds exactly the missing ids and keeps ids unique |
| `Handler.StillWritable` | oee_timeseries/handler.py:154-158 | once the batches of other metrics have been written, a batch of a writable set still finds none of the ids it must create taken |
| `Handler.NextStage` | oee_timeseries/handler.py:154-158 | writing the batch of metric k adds only its ids and keeps every batch written before it listed under its type |
| `Handler.Finished` | oee_timeseries/handler.py:154-158 | once all five upserts have succeeded, the batches were writable in the store as it was and every batch is listed under its type, which gives the "only if" half of `Handler.UpsertBatches` |
| `Handler.AcceptedWasListed` | oee_timeseries/tools.py:22-50 | a batch the store accepts under a type referenced, among the ids held before, only ids already listed under that data set and type |
| `Handler.ListedElsewhere` | oee_timeseries/tools.py:22-50 | a batch already listed under one type shares no id with a batch the store accepts under a different type |
| `Handler.WritableGrows` | oee_timeseries/handler.py:154-158 | a successful upsert of metric k extends the writability of the batches written so far to include k |
| `Handler.OutputIdsDistinct` | oee_timeseries/handler.py:109-149 | for items without a colon, `f"{item}:<type>"` ids of two different metrics never coincide, whichever two items they belong to |
| `Handler.BatchesWritable` | oee_timeseries/handler.py:80-158 | the batches built for colon-free equipment items, one record per item, are writable iff every `<item>:<type>` id the store already holds is listed under that data set and type |
| `Handler.ProcessSite` | oee_timeseries/handler.py:71-158 | over the rebuilt series, the site fails (other than by store refusal) iff some equipment item fails, and then leaves the store unchanged; the site succeeds iff every equipment item computes and every `<item>:<type>` id the store already holds is listed under the data set and that type; on success or store refusal every equipment item was visited once with its metrics and every series added is one the batches built from them create; on success the five batches hold one record per equipment item (each item once, in the returned order) built from that item's metrics, they are appended in the order of the five upserts, and every id written is listed under its type; on store refusal the records held are the old ones followed by the batches of the upserts that went through |
| `Handler.RoundHalfEven` | oee_timeseries/handler.py:60 | `round(n / d)` is the nearest integer, with ties going to the even one |
| `Handler.ReadStart` | oee_timeseries/handler.py:54 | the read range starts `window_size` minutes before the day range; `Handler.UnitLookbackAligned` and `Handler.UnitLookbackSpanEnd` state what follows from it |
| `Handler.UnitLookback` | oee_timeseries/handler.py:60 | the `lookback_minutes` argument of `process_site`; `Handler.UnitLookbackAligned` and `Handler.UnitLookbackSpanEnd` state its value |
| `Handler.UnitLookbackAligned` | oee_timeseries/handler.py:54-60 | for a range ending exactly on a minute (not one `handle` builds), the unit's lookback is the range's minutes and `lookback + window_size` is the read range's minutes |
| `Handler.RoundJustBelow` | oee_timeseries/handler.py:60 | a minute count just short of n whole minutes rounds to n |
| `Handler.UnitLookbackSpanEnd` | oee_timeseries/handler.py:52-60 | for a `span_range` day range (whole-minute start, end just before a whole minute), the unit's lookback is the range's minutes and the status grid over the read range has exactly `lookback + window_size` points |
| `Handler.SpanEndGridPassesCheck` | oee_timeseries/handler.py:86-97 | for such a range, status and planned-status grids of that length, together with count and good series with one bucket per minute, pass both length checks |
| `Handler.AlignedGridLength` | oee_timeseries/tools.py:93-96 | over a read range ending exactly on a minute, the status grid has one point more than the range has minutes |
| `Handler.AlignedStatusGridFailsCheck` | oee_timeseries/handler.py:86-97 | for a read range ending exactly on a minute (not one `handle` builds), the rebuilt status series is one point longer than a count series with at most one bucket per minute, so the length check fails |
| `Calculations.SplitAndJoin` | oee_timeseries/calculations.py:14-17 | the same transform as `translate_to_a_name`; with ASCII case mapping: same length, no separators, spaces where separators were, equal to the character scan |
| `Calculations.CreateExtIdAssetPairs` | oee_timeseries/calculations.py:20-21 | the dict comprehension; `Calculations.ExtIdAssetPairsKeys` and `Calculations.ExtIdAssetPairsLastWins` state its keys and values |
| `Calculations.ExtIdAssetPairsKeys` | oee_timeseries/calculations.py:20-21 | the map's keys are exactly the series' external ids |
| `Calculations.ExtIdAssetPairsLastWins` | oee_timeseries/calculations.py:20-21 | each id maps to the asset id of its last occurrence |
| `Calculations.CalculateOffSpec` | oee_timeseries/calculations.py:84-85 | off-spec plus good is total, not clamped: negative iff good exceeds total |
| `Calculations.CalculateTheoreticalRuntime` | oee_timeseries/calculations.py:88-89 | zero for no items, non-negative for non-negative inputs, and divided by the count gives the cycle time |
| `Calculations.Divide` | oee_timeseries/calculations.py:112-113 | Python `/` raises `ZeroDivisionError` iff the denominator is 0, and otherwise returns the quotient |
| `Calculations.SafeDivide` | oee_timeseries/calculations.py:92-99 | the decorator returns 0.0 for `ZeroDivisionError` and the wrapped result otherwise |
| `Calculations.CalculateQuality` | oee_timeseries/calculations.py:111-113 | 0.0 for a zero total, otherwise `good / total` (negative totals included) |
| `Calculations.QualityInUnit` | oee_timeseries/calculations.py:111-113 | quality lies in [0, 1] when `0 <= good <= total` |
| `Calculations.CalculateAvailability` | oee_timeseries/calculations.py:116-118 | 0.0 for zero planned runtime, otherwise actual / planned |
| `Calculations.CalculatePerformance` | oee_timeseries/calculations.py:121-123 | 0.0 for zero theoretical runtime, otherwise actual / theoretical |
| `Calculations.CalculateActualRuntime` | oee_timeseries/calculations.py:102-104 | 0.0 for an empty series and `None` otherwise |
| `Calculations.CalculatePlannedRuntime` | oee_timeseries/calculations.py:107-108 | the planned runtime is always 0.0 |
| `Calculations.AvailabilityOverPlannedIsZero` | oee_timeseries/calculations.py:107-118 | availability over the planned runtime is always 0.0 |
| `Streamer.TargetIterationTime` | execute_rest_extractor/ice_cream_factory_datapoints_extractor/datapoints_streamer.py:40 | `int(1.5 * n)`: the largest integer not above 1.5 times the number of series |
| `Streamer.Streamer.constructor` | execute_rest_extractor/ice_cream_factory_datapoints_extractor/datapoints_streamer.py:30-48 | sets the target iteration time, stores the queue, API, series list and look-back, and starts with an empty seen set |
| `Streamer.QueryIntervals` | execute_rest_extractor/ice_cream_factory_datapoints_extractor/datapoints_streamer.py:62-76 | the chunks the while loop queries; `Streamer.QueryIntervalsCover`, `Streamer.QueryIntervalsCount` and `Streamer.LookbackQueries` state them |
| `Streamer.QueryIntervalsCover` | execute_rest_extractor/ice_cream_factory_datapoints_extractor/datapoints_streamer.py:61-76 | there is a query iff the window is non-empty; the first starts at `to - lookback`, the last ends at `to`, each starts where the previous ended, and each is non-empty and at most the single-query look-back |
| `Streamer.QueryIntervalsCount` | execute_rest_extractor/ice_cream_factory_datapoints_extractor/datapoints_streamer.py:62-76 | n queries of step s over a window of length d satisfy `(n-1)*s < d <= n*s`: the fewest chunks that cover it |
| `Streamer.LookbackQueries` | execute_rest_extractor/ice_cream_factory_datapoints_extractor/datapoints_streamer.py:61-65 | a look-back of at most 3600 minutes gives exactly one query over the whole window; a look-back of 0 or less gives none |
| `Streamer.Enqueued` | execute_rest_extractor/ice_cream_factory_datapoints_extractor/datapoints_streamer.py:64-76 | everything the loop hands to the upload queue, chunk by chunk; `Streamer.EnqueuedStep` unfolds one chunk and `Streamer.Streamer.ExtractTimeseries` appends exactly it |
| `Streamer.Streamer.ExtractTimeseries` | execute_rest_extractor/ice_cream_factory_datapoints_extractor/datapoints_streamer.py:51-76 | the queue becomes the old queue followed by every returned series, chunk by chunk in query order; the seen set is unchanged |

## Left out

- Store and client calls are not modelled as I/O. The series listing, aggregate retrieval, `retrieve_latest`, data set lookup and state table read become parameters (`retrieved`, `latest`, `dataSetId`, `now`) or the abstract `Store`.
- `get_timeseries_for_site` and `get_state` are store queries, not modelled.
- `handle`'s thread pool, futures and `Arrow.span_range` day partitioning are concurrency and library behaviour. Only the range arithmetic of one unit is kept (`ReadStart`, `UnitLookback`).
- Each unit is stamped with the global `now` (handler.py:61, 110) rather than its own range end. `Handler.ProcessSite` takes `now` as given and reproduces this.
- `Arrow.span_range` ends each day range one microsecond before a whole minute. Timestamps here are whole milliseconds, so `Handler.UnitLookbackSpanEnd` takes the end as one millisecond before the minute. Minute flooring and the rounding of handler.py:60 give the same results for both.
- Floating point is not modelled: values are `real`, and timestamps are exact integer milliseconds. Arrow's `float_timestamp * 1000` is taken as exact.
- The extractor passes float seconds to the API. The model passes integer milliseconds.
- A window start that is not a whole minute is not special-cased: the carry-in query bound `start + 1` ms and the `(start, 0.0)` default use the exact start.
- `Streamer.run`, `stop`, the `@retry(tries=10)` decorator and `arrow.utcnow()` are timing and concurrency. `to_time` is a parameter, and an API failure is outside the oracle.
- `transform_and_sum_datapoints` and `calculate_count` are pandas reshaping over a client read.
- `calculations.insert_datapoints` is exception-driven create-then-retry against the client.
- `retrieve_cycle_times` and `get_timeseries_by_site_and_type` are client wrappers.
- `common/oauth.py`, `execute_rest_extractor/handler.py` and both `run_locally.py` files are credential and configuration plumbing, not part of this model.
- The state store and config objects the `Streamer` constructor receives are not part of this model. Only `config.frontfill.lookback_min` is kept.
- Missing series are modelled as an error, not excluded by a precondition. An item whose `count`, `good`, `status` or `planned_status` series is missing or empty makes numpy raise when `process_site` indexes it. `Handler.Column` models this as a `MissingSeries` failure.
- Negative or zero window sizes are modelled as an error. numpy raises for them, and `Metrics.ComputeItem` reports `InvalidWindow` instead.
- `Streamer.QueryIntervals` guards against a step of 0 or less. That step only arises with an empty window, where the source's loop does not run either.
- The order in which `process_site` visits the equipment set (Python set order) is left open. `Handler.BuildBatches` returns the order it used, and the batches follow it.
- `print` logging is not modelled.
- Names.TranslateToAName: maps case for ASCII letters only. Python's `str.title()` is Unicode-aware: `"a_éa"` becomes `"a Éa"` in Python, while the model gives `"a éA"`. Characters whose title case is longer (`"ß"` becomes `"Ss"`) change the name's length.
- Names.NameShape: this lemma, `Names.NameAt` and `Calculations.SplitAndJoin` hold for the model's ASCII case mapping. For ids with non-ASCII letters, Python's name can differ from them in case and in length.

=== FILE: calculations.dfy ===
/** The scalar helpers of calculations.py: the name transform, the
    external-id to asset map, and the ratios guarded by `safe_divide`. */
module Calculations {
  import opened Wrappers
  import Names
  import opened Keyed

  /** `split_and_join`: the same split on ':' and '_', title-casing of every
      segment but the first, and join with single spaces as
      tools.translate_to_a_name. */
  function SplitAndJoin(text: string): (r: string)
    ensures |r| == |text|
    ensures forall k :: 0 <= k < |r| ==> !Names.IsSeparator(r[k])
    ensures forall k :: 0 <= k < |text| && Names.IsSeparator(text[k]) ==> r[k] == ' '
    ensures r == Names.NameScan(text)
  {
    Names.NameShape(text);
    Names.TranslateToANameIsScan(text);
    Names.TranslateToAName(text)
  }

  /** A time series as `create_ext_id_asset_pairs` sees it: its external id
      and its asset id, which may be unset. */
  datatype TimeSeries = TimeSeries(externalId: string, assetId: Option<int>)

  /** The external ids of the series, in order. */
  function ExternalIds(ts: seq<TimeSeries>): (ids: seq<string>)
    ensures |ids| == |ts|
    ensures forall i :: 0 <= i < |ts| ==> ids[i] == ts[i].externalId
  {
    seq(|ts|, i requires 0 <= i < |ts| => ts[i].externalId)
  }

  /** `{ts.external_id: ts.asset_id for ts in timeseries}`: built left to
      right, so a later series with the same id overwrites an earlier one. */
  function CreateExtIdAssetPairs(ts: seq<TimeSeries>): map<string, Option<int>>
  {
    if ts == [] then map[]
    else CreateExtIdAssetPairs(ts[..|ts| - 1])[ts[|ts| - 1].externalId := ts[|ts| - 1].assetId]
  }

  /** The map's keys are exactly the external ids. */
  lemma {:induction false} ExtIdAssetPairsKeys(ts: seq<TimeSeries>)
    ensures forall i :: 0 <= i < |ts| ==> ts[i].externalId in CreateExtIdAssetPairs(ts)
    ensures forall k :: k in CreateExtIdAssetPairs(ts) ==> exists i :: 0 <= i < |ts| && ts[i].externalId == k
  {
    if ts != [] {
      var n := |ts| - 1;
      var p := ts[..n];
      ExtIdAssetPairsKeys(p);
      var m0, m := CreateExtIdAssetPairs(p), CreateExtIdAssetPairs(ts);
      assert m == m0[ts[n].externalId := ts[n].assetId];
      forall i | 0 <= i < n
        ensures ts[i].externalId in m
      {
        assert p[i] == ts[i];
      }
      forall k | k in m && k != ts[n].externalId
        ensures exists i :: 0 <= i < |ts| && ts[i].externalId == k
      {
        var i :| 0 <= i < |p| && p[i].externalId == k;
        assert ts[i].externalId == k;
      }
    }
  }

  /** Each id maps to the asset of its last series. */
  lemma {:induction false} ExtIdAssetPairsLastWins(ts: seq<TimeSeries>, i: int)
    requires 0 <= i < |ts| && LastOccurrence(ExternalIds(ts), i)
    ensures ts[i].externalId in CreateExtIdAssetPairs(ts)
    ensures CreateExtIdAssetPairs(ts)[ts[i].externalId] == ts[i].assetId
    decreases |ts|
  {
    var n := |ts| - 1;
    if i < n {
      var p := ts[..n];
      LastInPrefix(ExternalIds(ts), i);
      assert ExternalIds(p) == ExternalIds(ts)[..n];
      assert p[i] == ts[i];
      ExtIdAssetPairsLastWins(p, i);
    }
  }

  /** `calculate_off_spec`: the bad count, not clamped at zero. */
  function CalculateOffSpec(goodCount: int, totalCount: int): (r: int)
    ensures r + goodCount == totalCount
    ensures r >= 0 <==> goodCount <= totalCount
  {
    totalCount - goodCount
  }

  /** `calculate_theoretical_runtime`: cycle time times count. */
  function CalculateTheoreticalRuntime(cycleTime: real, totalCount: int): (r: real)
    ensures totalCount == 0 ==> r == 0.0
    ensures cycleTime >= 0.0 && totalCount >= 0 ==> r >= 0.0
    ensures totalCount > 0 ==> r / (totalCount as real) == cycleTime
  {
    cycleTime * totalCount as real
  }

  /** The outcome of a wrapped division: its quotient, or the
      ZeroDivisionError Python raises for a zero divisor. */
  datatype Division = Quotient(q: real) | ZeroDivision

  /** Python's `/` on numbers. */
  function Divide(num: real, den: real): (d: Division)
    ensures d.ZeroDivision? <==> den == 0.0
    ensures d.Quotient? ==> d.q * den == num
  {
    if den == 0.0 then ZeroDivision else Quotient(num / den)
  }

  /** `safe_divide`: the wrapped result, or 0.0 when it raised
      ZeroDivisionError. */
  function SafeDivide(d: Division): (r: real)
    ensures d.ZeroDivision? ==> r == 0.0
    ensures d.Quotient? ==> r == d.q
  {
    match d
    case ZeroDivision => 0.0
    case Quotient(q) => q
  }

  /** `calculate_quality`: good over total, 0.0 for a zero total; a negative
      total still divides. */
  function CalculateQuality(goodCount: real, totalCount: real): (r: real)
    ensures totalCount == 0.0 ==> r == 0.0
    ensures totalCount != 0.0 ==> r * totalCount == goodCount
  {
    SafeDivide(Divide(goodCount, totalCount))
  }

  /** `calculate_availability`: actual over planned runtime, 0.0 for a zero
      plan. */
  function CalculateAvailability(actualRuntime: real, plannedRuntime: real): (r: real)
    ensures plannedRuntime == 0.0 ==> r == 0.0
    ensures plannedRuntime != 0.0 ==> r * plannedRuntime == actualRuntime
  {
    SafeDivide(Divide(actualRuntime, plannedRuntime))
  }

  /** `calculate_performance`: actual over theoretical runtime, 0.0 for a
      zero theoretical runtime. */
  function CalculatePerformance(actualRuntime: real, theoreticalRuntime: real): (r: real)
    ensures theoreticalRuntime == 0.0 ==> r == 0.0
    ensures theoreticalRuntime != 0.0 ==> r * theoreticalRuntime == actualRuntime
  {
    SafeDivide(Divide(actualRuntime, theoreticalRuntime))
  }

  /** Consistent counts give a quality in [0, 1]. */
  lemma QualityInUnit(goodCount: real, totalCount: real)
    requires 0.0 <= goodCount <= totalCount
    ensures 0.0 <= CalculateQuality(goodCount, totalCount) <= 1.0
  {
    if totalCount != 0.0 {
      var r := CalculateQuality(goodCount, totalCount);
      assert r == goodCount / totalCount;
      assert (1.0 - r) * totalCount == totalCount - goodCount;
    }
  }

  /** `calculate_actual_runtime`: 0.0 for an empty series; for any other
      series the function falls off its end and returns None. */
  function CalculateActualRuntime(equipmentSeries: seq<real>, lookbackMinutes: nat): (r: Option<real>)
    ensures r.Some? <==> |equipmentSeries| == 0
    ensures r.Some? ==> r.value == 0.0
  {
    if |equipmentSeries| == 0 then Some(0.0) else None
  }

  /** `calculate_planned_runtime`: always 0.0. */
  function CalculatePlannedRuntime(): (r: real)
    ensures r == 0.0
  {
    0.0
  }

  /** Since the planned runtime is always zero, availability computed over
      it is always 0.0, whatever the actual runtime. */
  lemma AvailabilityOverPlannedIsZero(actualRuntime: real)
    ensures CalculateAvailability(actualRuntime, CalculatePlannedRuntime()) == 0.0
  {
  }
}

=== FILE: gapfill.dfy ===
/** Gap filling of status signals (`discover_datapoints` in tools.py): the
    per-minute sums of every retrieved series are sorted by timestamp, and
    every series whose external id ends in "status" is replaced by a dense
    grid with one value per minute, looked up in the carry-in sample plus
    the retrieved samples. The store's `retrieve` and `retrieve_latest`
    calls become the inputs `retrieved` and `latest`. */
module GapFill {
  import opened Samples
  import opened Keyed

  /** What the aggregate query returned: (external id, samples) per series. */
  type Retrieved = seq<(string, seq<Sample>)>

  /** `k.endswith("status")`; true for both status and planned_status. */
  predicate IsStatusId(id: string)
  {
    |id| >= 6 && id[|id| - 6..] == "status"
  }

  /** The external ids of the retrieved series, in order. */
  function Ids(r: Retrieved): (ids: seq<string>)
    ensures |ids| == |r|
    ensures forall i :: 0 <= i < |r| ==> ids[i] == r[i].0
  {
    seq(|r|, i requires 0 <= i < |r| => r[i].0)
  }

  /** The `outcome` dict after the first loop: every retrieved series,
      sorted by timestamp, a later entry for the same id replacing an
      earlier one. */
  function Collect(r: Retrieved): map<string, seq<Sample>>
  {
    if r == [] then map[]
    else Collect(r[..|r| - 1])[r[|r| - 1].0 := SortByTs(r[|r| - 1].1)]
  }

  /** The first loop keeps exactly the retrieved ids. */
  lemma {:induction false} CollectKeys(r: Retrieved)
    ensures forall i :: 0 <= i < |r| ==> r[i].0 in Collect(r)
    ensures forall k :: k in Collect(r) ==> exists i :: 0 <= i < |r| && r[i].0 == k
  {
    if r != [] {
      var n := |r| - 1;
      var p := r[..n];
      CollectKeys(p);
      var m0, m := Collect(p), Collect(r);
      assert m == m0[r[n].0 := SortByTs(r[n].1)];
      forall i | 0 <= i < n
        ensures r[i].0 in m
      {
        assert p[i] == r[i];
      }
      forall k | k in m && k != r[n].0
        ensures exists i :: 0 <= i < |r| && r[i].0 == k
      {
        var i :| 0 <= i < |p| && p[i].0 == k;
        assert r[i].0 == k;
      }
    }
  }

  /** Each id holds the sorted samples of its last retrieved entry. */
  lemma {:induction false} CollectLastWins(r: Retrieved, i: int)
    requires 0 <= i < |r| && LastOccurrence(Ids(r), i)
    ensures r[i].0 in Collect(r)
    ensures Collect(r)[r[i].0] == SortByTs(r[i].1)
    decreases |r|
  {
    var n := |r| - 1;
    if i < n {
      var p := r[..n];
      LastInPrefix(Ids(r), i);
      assert Ids(p) == Ids(r)[..n];
      assert p[i] == r[i];
      CollectLastWins(p, i);
    }
  }

  /** The carry-in samples returned by `retrieve_latest` for series `k`. */
  function CarryIn(latest: map<string, seq<Sample>>, k: string): seq<Sample>
  {
    if k in latest then latest[k] else []
  }

  /** The known (timestamp, value) list of tools.py:80-85. */
  function KnownList(carry: seq<Sample>, window: seq<Sample>, start: int): (known: seq<Sample>)
    ensures |known| >= 1
    ensures carry == [] ==> known == [Sample(start, 0.0)]
    ensures carry != [] ==> known == carry + window
  {
    if |carry| == 0 then [Sample(start, 0.0)]
    else if |window| == 0 then carry
    else carry + window
  }

  /** The index of the first known sample later than `t`, or |known| if
      there is none. */
  function FirstAbove(known: seq<Sample>, t: int): (i: nat)
    ensures i <= |known|
    ensures forall j :: 0 <= j < i ==> known[j].ts <= t
    ensures i < |known| ==> known[i].ts > t
  {
    if known == [] then 0
    else if known[0].ts > t then 0
    else 1 + FirstAbove(known[1..], t)
  }

  /** `next((values[i - 1][1] for i, v in enumerate(values) if v[0] > t),
      values[0][1])`, with Python's index -1 naming the last element. */
  function LookupValue(known: seq<Sample>, t: int): real
    requires |known| >= 1
  {
    var i := FirstAbove(known, t);
    if i == |known| then known[0].value
    else if i == 0 then known[|known| - 1].value
    else known[i - 1].value
  }

  /** The grid minutes `range(floor(start), floor(end) + 1 minute, 1 minute)`. */
  function MinuteGrid(start: int, end: int): seq<int>
  {
    MinuteRange(FloorMinute(start), FloorMinute(end) + MINUTE_MS)
  }

  /** The number of grid minutes: from the start minute to the end minute,
      both included. */
  function GridCount(start: int, end: int): nat
  {
    var fs, fe := FloorMinute(start), FloorMinute(end);
    if fe < fs then 0 else (fe - fs) / MINUTE_MS + 1
  }

  /** The dense status series for one id (tools.py:87-100). */
  function FillGrid(known: seq<Sample>, start: int, end: int): seq<Sample>
    requires |known| >= 1
  {
    SortByTs(GridSamples(known, start, end))
  }

  /** The list comprehension inside the sort: one looked-up sample per grid
      minute. */
  function GridSamples(known: seq<Sample>, start: int, end: int): seq<Sample>
    requires |known| >= 1
  {
    var grid := MinuteGrid(start, end);
    seq(|grid|, i requires 0 <= i < |grid| => Sample(grid[i], LookupValue(known, grid[i])))
  }

  /** The entry the second loop leaves for id `k` with sorted samples `v`:
      the filled grid for a status series, `v` itself otherwise. */
  function Filled(latest: map<string, seq<Sample>>, k: string, v: seq<Sample>, start: int, end: int): seq<Sample>
  {
    if IsStatusId(k) then FillGrid(KnownList(CarryIn(latest, k), v, start), start, end) else v
  }

  /** The `outcome` dict that `discover_datapoints` returns. */
  function Discovered(r: Retrieved, latest: map<string, seq<Sample>>, start: int, end: int): map<string, seq<Sample>>
  {
    var c := Collect(r);
    map k | k in c :: Filled(latest, k, c[k], start, end)
  }

  /** tools.discover_datapoints after the store query: the first loop fills
      the dict, the second overwrites every status entry in place. */
  method DiscoverDatapoints(r: Retrieved, latest: map<string, seq<Sample>>, start: int, end: int)
    returns (outcome: map<string, seq<Sample>>)
    ensures outcome == Discovered(r, latest, start, end)
  {
    outcome := map[];
    for i := 0 to |r|
      invariant outcome == Collect(r[..i])
    {
      assert r[..i + 1][..i] == r[..i];
      outcome := outcome[r[i].0 := SortByTs(r[i].1)];
    }
    assert r[..|r|] == r;
    ghost var collected := outcome;
    var pending := outcome.Keys;
    while pending != {}
      invariant pending <= collected.Keys
      invariant outcome.Keys == collected.Keys
      invariant forall k :: k in outcome && k !in pending ==> outcome[k] == Filled(latest, k, collected[k], start, end)
      invariant forall k :: k in pending ==> outcome[k] == collected[k]
      decreases pending
    {
      var k :| k in pending;
      var v := outcome[k];
      if IsStatusId(k) {
        var values := KnownList(CarryIn(latest, k), v, start);
        outcome := outcome[k := FillGrid(values, start, end)];
      }
      assert outcome[k] == Filled(latest, k, collected[k], start, end);
      pending := pending - {k};
    }
    ghost var expected := Discovered(r, latest, start, end);
    assert collected == Collect(r);
    assert outcome.Keys == expected.Keys;
    forall k | k in outcome
      ensures outcome[k] == expected[k]
    {
    }
  }

  /** The grid holds exactly the minutes from floor(start) to floor(end). */
  lemma MinuteGridShape(start: int, end: int)
    ensures |MinuteGrid(start, end)| == GridCount(start, end)
    ensures forall i :: 0 <= i < GridCount(start, end) ==>
      MinuteGrid(start, end)[i] == FloorMinute(start) + i * MINUTE_MS
  {
    var fs, fe := FloorMinute(start), FloorMinute(end);
    if fe >= fs {
      var n := (fe - fs) / MINUTE_MS;
      assert fe - fs == n * MINUTE_MS;
    }
  }

  /** The comprehension already yields the minutes in increasing order. */
  lemma GridSamplesShape(known: seq<Sample>, start: int, end: int)
    requires |known| >= 1
    ensures |GridSamples(known, start, end)| == GridCount(start, end)
    ensures StrictlyIncreasing(GridSamples(known, start, end))
    ensures forall i :: 0 <= i < GridCount(start, end) ==>
      GridSamples(known, start, end)[i] ==
        Sample(FloorMinute(start) + i * MINUTE_MS, LookupValue(known, FloorMinute(start) + i * MINUTE_MS))
  {
    MinuteGridShape(start, end);
    var raw := GridSamples(known, start, end);
    assert forall i :: 0 <= i < |raw| ==> raw[i].ts == FloorMinute(start) + i * MINUTE_MS;
  }

  /** Every status series becomes exactly GridCount(start, end) samples at
      consecutive minutes from floor(start) to floor(end), in strictly
      increasing order, each holding the looked-up value for its minute. */
  lemma FillGridShape(known: seq<Sample>, start: int, end: int)
    requires |known| >= 1
    ensures |FillGrid(known, start, end)| == GridCount(start, end)
    ensures StrictlyIncreasing(FillGrid(known, start, end))
    ensures forall i :: 0 <= i < GridCount(start, end) ==>
      FillGrid(known, start, end)[i] ==
        Sample(FloorMinute(start) + i * MINUTE_MS, LookupValue(known, FloorMinute(start) + i * MINUTE_MS))
    ensures GridCount(start, end) > 0 ==>
      FillGrid(known, start, end)[GridCount(start, end) - 1].ts == FloorMinute(end)
  {
    var raw := GridSamples(known, start, end);
    GridSamplesShape(known, start, end);
    SortSortedIsIdentity(raw);
    assert FillGrid(known, start, end) == raw;
    GridEndsAtEnd(start, end);
  }

  /** The last grid minute is floor(end). */
  lemma GridEndsAtEnd(start: int, end: int)
    ensures GridCount(start, end) > 0 ==>
      FloorMinute(start) + (GridCount(start, end) - 1) * MINUTE_MS == FloorMinute(end)
  {
    var fs, fe := FloorMinute(start), FloorMinute(end);
    if fe >= fs {
      var n := (fe - fs) / MINUTE_MS;
      assert fe - fs == n * MINUTE_MS;
    }
  }

  /** Without a carry-in sample the known list is the single pair
      (start, 0.0), whatever the window holds, so every grid value is 0.0. */
  lemma NoCarryInMeansZero(window: seq<Sample>, start: int, end: int)
    ensures forall i :: 0 <= i < |FillGrid(KnownList([], window, start), start, end)| ==>
      FillGrid(KnownList([], window, start), start, end)[i].value == 0.0
  {
    var known := KnownList([], window, start);
    FillGridShape(known, start, end);
    forall i | 0 <= i < GridCount(start, end)
      ensures FillGrid(known, start, end)[i].value == 0.0
    {
      var t := FloorMinute(start) + i * MINUTE_MS;
      assert LookupValue(known, t) == 0.0;
    }
  }

  /** How the lookup rule relates to step-hold reconstruction over a known
      list in timestamp order: between two known samples a minute takes the
      earlier sample's value; before the first sample it takes the LAST
      sample's value (index -1); at or after the last sample it takes the
      FIRST sample's value (the default of `next`). */
  lemma LookupStepHold(known: seq<Sample>, t: int)
    requires |known| >= 1
    requires Sorted(known)
    ensures t < known[0].ts ==> LookupValue(known, t) == known[|known| - 1].value
    ensures known[|known| - 1].ts <= t ==> LookupValue(known, t) == known[0].value
    ensures forall j :: 0 <= j < |known| - 1 && known[j].ts <= t < known[j + 1].ts ==>
      LookupValue(known, t) == known[j].value
  {
  }

  /** Non-status series come back as the last retrieved samples for their
      id, sorted by timestamp and otherwise untouched. */
  lemma NonStatusSorted(r: Retrieved, latest: map<string, seq<Sample>>, start: int, end: int, i: int)
    requires 0 <= i < |r| && LastOccurrence(Ids(r), i) && !IsStatusId(r[i].0)
    ensures r[i].0 in Discovered(r, latest, start, end)
    ensures Discovered(r, latest, start, end)[r[i].0] == SortByTs(r[i].1)
    ensures Sorted(Discovered(r, latest, start, end)[r[i].0])
    ensures multiset(Discovered(r, latest, start, end)[r[i].0]) == multiset(r[i].1)
  {
    CollectLastWins(r, i);
    SortByTsSpec(r[i].1);
  }

  /** Status series are replaced by the grid over the known list built from
      their carry-in and their last retrieved samples. */
  lemma StatusFilled(r: Retrieved, latest: map<string, seq<Sample>>, start: int, end: int, i: int)
    requires 0 <= i < |r| && LastOccurrence(Ids(r), i) && IsStatusId(r[i].0)
    ensures r[i].0 in Discovered(r, latest, start, end)
    ensures var out := Discovered(r, latest, start, end)[r[i].0];
      && |out| == GridCount(start, end)
      && StrictlyIncreasing(out)
      && (forall j :: 0 <= j < |out| ==> out[j].ts == FloorMinute(start) + j * MINUTE_MS)
      && (forall j :: 0 <= j < |out| ==>
            out[j].value == LookupValue(KnownList(CarryIn(latest, r[i].0), SortByTs(r[i].1), start), out[j].ts))
  {
    CollectLastWins(r, i);
    var k := r[i].0;
    var known := KnownList(CarryIn(latest, k), SortByTs(r[i].1), start);
    assert Collect(r)[k] == SortByTs(r[i].1);
    assert Discovered(r, latest, start, end)[k] == FillGrid(known, start, end);
    FillGridShape(known, start, end);
  }

  /** Only ids that were retrieved appear in the result. */
  lemma DiscoveredKeys(r: Retrieved, latest: map<string, seq<Sample>>, start: int, end: int)
    ensures forall k :: k in Discovered(r, latest, start, end) <==> exists i :: 0 <= i < |r| && r[i].0 == k
  {
    CollectKeys(r);
  }

  /** For a window whose ends are whole minutes, the grid has one point more
      than the window has minutes: it includes the end minute. */
  lemma AlignedGridIncludesEnd(start: int, end: int)
    requires start % MINUTE_MS == 0 && end % MINUTE_MS == 0 && start <= end
    ensures GridCount(start, end) == (end - start) / MINUTE_MS + 1
  {
    assert FloorMinute(start) == start && FloorMinute(end) == end;
  }

  /** For a window ending one millisecond before a whole minute the grid
      ends at the minute before it: one point per minute of the window. */
  lemma SpanEndGrid(start: int, end: int)
    requires start % MINUTE_MS == 0 && end % MINUTE_MS == 0 && start < end
    ensures GridCount(start, end - 1) == (end - start) / MINUTE_MS
  {
    FloorMinuteUnique(start, start);
    FloorMinuteUnique(end - 1, end - MINUTE_MS);
  }
}

=== FILE: handler.dfy ===
/** The per-site unit of work of handler.py: `process_site` turns the
    discovered series of one site into five batches of metric records, one
    record per equipment item in each, and upserts them; `handle` gives
    each unit a read range that starts `window_size` minutes early. */
module Handler {
  import opened Samples
  import opened Wrappers
  import opened Metrics
  import opened Upsert
  import GapFill
  import Names

  /** The five lists of `process_site` (handler.py:75-79). */
  datatype Batches = Batches(
    offSpec: seq<Record>, quality: seq<Record>, performance: seq<Record>,
    availability: seq<Record>, oee: seq<Record>)

  /** `np.array(points.get(key))[:, 1]`: the value column of a series; numpy
      raises IndexError when the series is missing or empty. */
  function Column(points: map<string, seq<Sample>>, key: string): (r: Result<seq<real>, SiteError>)
    ensures r.Success? <==> key in points && |points[key]| > 0
    ensures r.Success? ==> r.value == Values(points[key])
    ensures r.Failure? ==> r.error == MissingSeries
  {
    if key in points && |points[key]| > 0 then Success(Values(points[key])) else Failure(MissingSeries)
  }

  /** Everything handler.py:81-145 computes for one equipment item. */
  function ItemResult(points: map<string, seq<Sample>>, item: string, lookback: int, w: int): Result<ItemMetrics, SiteError>
  {
    var count := Column(points, item + ":count");
    var good := Column(points, item + ":good");
    var status := Column(points, item + ":status");
    var planned := Column(points, item + ":planned_status");
    if count.Failure? || good.Failure? || status.Failure? || planned.Failure? then Failure(MissingSeries)
    else ComputeItem(count.value, good.value, status.value, planned.value, lookback, w)
  }

  /** `{"externalId": f"{item}{suffix}", "datapoints": get_payload(values, lookback, now)}`. */
  function MetricRecord(item: string, suffix: string, values: seq<real>, lookback: int, now: int): Record
    requires lookback <= |values|
  {
    Record(item + suffix, GetPayload(values, lookback, now))
  }

  /** The five metrics `process_site` writes for every item, each to the
      series `<item>:<suffix>` of the time series type of the same name. */
  datatype Metric = OffSpec | Quality | Performance | Availability | Oee

  function Suffix(k: Metric): string
  {
    match k
    case OffSpec => ":off_spec"
    case Quality => ":quality"
    case Performance => ":performance"
    case Availability => ":availability"
    case Oee => ":oee"
  }

  /** The `type` metadata of the series a metric is written to. */
  function TypeName(k: Metric): string
  {
    match k
    case OffSpec => "off_spec"
    case Quality => "quality"
    case Performance => "performance"
    case Availability => "availability"
    case Oee => "oee"
  }

  /** The external id of metric `k` of an equipment item. */
  function OutputId(item: string, k: Metric): string
  {
    item + Suffix(k)
  }

  /** The batch of `b` that holds metric `k`. */
  function Batch(b: Batches, k: Metric): seq<Record>
  {
    match k
    case OffSpec => b.offSpec
    case Quality => b.quality
    case Performance => b.performance
    case Availability => b.availability
    case Oee => b.oee
  }

  /** `Batch` and `TypeName` name the five lists and types of process_site. */
  lemma BatchFields(b: Batches)
    ensures Batch(b, Performance) == b.performance && TypeName(Performance) == "performance"
    ensures Batch(b, Quality) == b.quality && TypeName(Quality) == "quality"
    ensures Batch(b, Availability) == b.availability && TypeName(Availability) == "availability"
    ensures Batch(b, OffSpec) == b.offSpec && TypeName(OffSpec) == "off_spec"
    ensures Batch(b, Oee) == b.oee && TypeName(Oee) == "oee"
  {
  }

  /** The metric of the upsert at position `i`, in the order performance,
      quality, availability, off-spec, OEE. */
  function CallAt(i: nat): Metric
    requires i < 5
  {
    if i == 0 then Performance
    else if i == 1 then Quality
    else if i == 2 then Availability
    else if i == 3 then OffSpec
    else Oee
  }

  /** The records the first `n` upserts append, in call order. */
  function Appended(b: Batches, n: nat): seq<Record>
    requires n <= 5
  {
    if n == 0 then [] else Appended(b, n - 1) + Batch(b, CallAt(n - 1))
  }

  /** The upsert at position `n` appends its batch to what the earlier
      ones appended. */
  lemma AppendedStep(b: Batches, i0: seq<Record>, n: nat)
    requires n < 5
    ensures i0 + Appended(b, n + 1) == i0 + Appended(b, n) + Batch(b, CallAt(n))
  {
  }

  lemma AppendedFields(b: Batches, i0: seq<Record>)
    ensures i0 + Appended(b, 5) == i0 + b.performance + b.quality + b.availability + b.offSpec + b.oee
  {
    BatchFields(b);
    assert Appended(b, 1) == b.performance by {
      assert Appended(b, 1) == [] + b.performance;
    }
    assert Appended(b, 2) == b.performance + b.quality;
    assert Appended(b, 3) == b.performance + b.quality + b.availability;
    assert Appended(b, 4) == b.performance + b.quality + b.availability + b.offSpec;
  }

  /** The batch the upserts write under the type `typ`; empty for a type
      none of the five metrics has. */
  function TypedBatch(b: Batches, typ: string): seq<Record>
  {
    if typ == "performance" then b.performance
    else if typ == "quality" then b.quality
    else if typ == "availability" then b.availability
    else if typ == "off_spec" then b.offSpec
    else if typ == "oee" then b.oee
    else []
  }

  /** Each metric's batch is the one written under its type. */
  lemma TypedBatchOf(b: Batches, k: Metric)
    ensures TypedBatch(b, TypeName(k)) == Batch(b, k)
  {
    match k
    case Performance =>
    case Quality => assert TypeName(k) != "performance";
    case Availability => assert TypeName(k)[0] == 'a';
    case OffSpec => assert TypeName(k)[1] == 'f';
    case Oee => assert TypeName(k)[0] == 'o' && TypeName(k)[1] == 'e';
  }

  /** A series an upsert of `b` may create: named after its id by
      `translate_to_a_name`, in the data set, and of a type whose batch
      references its id. */
  predicate CreatedFor(b: Batches, dataSetId: int, x: Series)
  {
    && x.dataSetId == dataSetId
    && x.name == Names.TranslateToAName(x.externalId)
    && x.externalId in ReferencedIds(TypedBatch(b, x.typ))
  }

  /** Every series of `s` that `s0` lacks is one an upsert of `b` may create. */
  predicate OnlyCreatedFor(s0: set<Series>, s: set<Series>, b: Batches, dataSetId: int)
  {
    forall x :: x in s && x !in s0 ==> CreatedFor(b, dataSetId, x)
  }

  /** Creating the missing series of batch `k` keeps every new series one
      the upserts may create. */
  lemma CreatedStep(s0: set<Series>, s1: set<Series>, b: Batches, k: Metric, listed: set<string>, dataSetId: int)
    requires OnlyCreatedFor(s0, s1, b, dataSetId)
    ensures OnlyCreatedFor(s0, s1 + NewSeries(MissingIds(Batch(b, k), listed), TypeName(k), dataSetId), b, dataSetId)
  {
    var created := NewSeries(MissingIds(Batch(b, k), listed), TypeName(k), dataSetId);
    TypedBatchOf(b, k);
    forall x | x in created
      ensures CreatedFor(b, dataSetId, x)
    {
      assert x.externalId in IdsOf(created);
    }
  }

  /** Every metric series of an item reaches back at least `lookback` minutes. */
  predicate Covers(m: ItemMetrics, lookback: int)
  {
    lookback <= |m.offSpec| && lookback <= |m.quality| && lookback <= |m.performance|
    && lookback <= |m.availability| && lookback <= |m.oee|
  }

  /** The record of one metric of one item. */
  function ItemRecord(item: string, m: ItemMetrics, k: Metric, lookback: int, now: int): (r: Record)
    requires Covers(m, lookback)
    ensures r.externalId == item + Suffix(k)
  {
    var values := match k
      case OffSpec => m.offSpec
      case Quality => m.quality
      case Performance => m.performance
      case Availability => m.availability
      case Oee => m.oee;
    MetricRecord(item, Suffix(k), values, lookback, now)
  }

  /** One metric's records for the items, in the given order. */
  function Records(items: seq<string>, ms: seq<ItemMetrics>, k: Metric, lookback: int, now: int): (rs: seq<Record>)
    requires |ms| == |items|
    requires forall i :: 0 <= i < |ms| ==> Covers(ms[i], lookback)
  {
    seq(|items|, i requires 0 <= i < |items| => ItemRecord(items[i], ms[i], k, lookback, now))
  }

  /** The five batches `process_site` builds for the items, in the given
      order, from their computed metrics. */
  function BatchesFor(items: seq<string>, ms: seq<ItemMetrics>, lookback: int, now: int): Batches
    requires |ms| == |items|
    requires forall i :: 0 <= i < |ms| ==> Covers(ms[i], lookback)
  {
    Batches(Records(items, ms, OffSpec, lookback, now), Records(items, ms, Quality, lookback, now),
            Records(items, ms, Performance, lookback, now), Records(items, ms, Availability, lookback, now),
            Records(items, ms, Oee, lookback, now))
  }

  /** No equipment item of the site raises: each has its four series and
      consistent lengths. */
  predicate AllItemsCompute(points: map<string, seq<Sample>>, lookback: int, w: int)
  {
    forall item :: item in Equipment(points.Keys) ==> ItemResult(points, item, lookback, w).Success?
  }

  /** An item fails on its own series, never because the store refused a
      write. */
  lemma ItemErrorIsNotStore(points: map<string, seq<Sample>>, item: string, lookback: int, w: int)
    ensures ItemResult(points, item, lookback, w).Failure? ==> ItemResult(points, item, lookback, w).error != StoreRejected
  {
  }

  /** `order` lists every equipment item exactly once, and `ms[i]` is what
      the item `order[i]` computes to. */
  predicate Visited(points: map<string, seq<Sample>>, order: seq<string>, ms: seq<ItemMetrics>, lookback: int, w: int)
  {
    && |order| == |Equipment(points.Keys)| && |ms| == |order|
    && (forall i :: 0 <= i < |order| ==> order[i] in Equipment(points.Keys))
    && (forall item :: item in Equipment(points.Keys) ==> item in order)
    && (forall i, j :: 0 <= i < j < |order| ==> order[i] != order[j])
    && (forall i :: 0 <= i < |order| ==> ItemResult(points, order[i], lookback, w) == Success(ms[i]))
    && (forall i :: 0 <= i < |ms| ==> Covers(ms[i], lookback))
  }

  /** The loop of handler.py:80-153: every equipment item in some order,
      stopping at the first item whose series are missing or whose lengths
      are wrong. On success each of the five batches holds one record per
      item, built from that item's metrics, in the order the items were
      visited. */
  method BuildBatches(points: map<string, seq<Sample>>, lookback: int, now: int, w: int)
    returns (res: Result<Batches, SiteError>, order: seq<string>, ms: seq<ItemMetrics>)
    ensures res.Success? <==> AllItemsCompute(points, lookback, w)
    ensures res.Failure? ==>
      exists item :: item in Equipment(points.Keys) && ItemResult(points, item, lookback, w) == Failure(res.error)
    ensures res.Success? ==> Visited(points, order, ms, lookback, w)
    ensures res.Success? ==> res.value == BatchesFor(order, ms, lookback, now)
  {
    var equipment := Equipment(points.Keys);
    var remaining := equipment;
    order, ms := [], [];
    var batches := Batches([], [], [], [], []);
    while remaining != {}
      invariant Progress(points, equipment, remaining, order, ms, lookback, w, now, batches)
      decreases remaining
    {
      var item :| item in remaining;
      var m := ItemResult(points, item, lookback, w);
      if m.Failure? {
        return Failure(m.error), order, ms;
      }
      VisitStep(points, equipment, remaining, order, ms, lookback, w, now, batches, item, m.value);
      batches := Append(batches, item, m.value, lookback, now);
      order, ms := order + [item], ms + [m.value];
      remaining := remaining - {item};
    }
    AllVisited(points, equipment, order, ms, lookback, w, now, batches);
    res := Success(batches);
  }

  /** The five batches with one more item's records appended. */
  function Append(b: Batches, item: string, m: ItemMetrics, lookback: int, now: int): Batches
    requires Covers(m, lookback)
  {
    Batches(
      b.offSpec + [ItemRecord(item, m, OffSpec, lookback, now)],
      b.quality + [ItemRecord(item, m, Quality, lookback, now)],
      b.performance + [ItemRecord(item, m, Performance, lookback, now)],
      b.availability + [ItemRecord(item, m, Availability, lookback, now)],
      b.oee + [ItemRecord(item, m, Oee, lookback, now)])
  }

  /** The loop invariant of BuildBatches: the visited items and the
      remaining ones partition the equipment, each visited item once, with
      its computed metrics, and the batches built from them. */
  predicate Progress(points: map<string, seq<Sample>>, equipment: set<string>, remaining: set<string>,
                     order: seq<string>, ms: seq<ItemMetrics>, lookback: int, w: int, now: int, batches: Batches)
  {
    && remaining <= equipment
    && |ms| == |order|
    && (forall i :: 0 <= i < |order| ==> order[i] in equipment && order[i] !in remaining)
    && (forall i, j :: 0 <= i < j < |order| ==> order[i] != order[j])
    && (forall item :: item in equipment ==> item in remaining || item in order)
    && (forall i :: 0 <= i < |order| ==> ItemResult(points, order[i], lookback, w) == Success(ms[i]))
    && (forall i :: 0 <= i < |ms| ==> Covers(ms[i], lookback))
    && batches == BatchesFor(order, ms, lookback, now)
  }

  /** One iteration of BuildBatches keeps its invariant. */
  lemma VisitStep(points: map<string, seq<Sample>>, equipment: set<string>, remaining: set<string>,
                  order: seq<string>, ms: seq<ItemMetrics>, lookback: int, w: int, now: int, batches: Batches,
                  item: string, m: ItemMetrics)
    requires Progress(points, equipment, remaining, order, ms, lookback, w, now, batches)
    requires item in remaining && ItemResult(points, item, lookback, w) == Success(m)
    ensures Covers(m, lookback)
    ensures Progress(points, equipment, remaining - {item}, order + [item], ms + [m], lookback, w, now,
                     Append(batches, item, m, lookback, now))
  {
    assert Covers(m, lookback);
    BatchesForSnoc(order, ms, item, m, lookback, now);
    VisitOne(order, item, remaining, equipment);
    ResultsSnoc(points, order, ms, item, m, lookback, w);
  }

  /** When nothing remains, every equipment item was visited exactly once
      and computed successfully. */
  lemma AllVisited(points: map<string, seq<Sample>>, equipment: set<string>,
                   order: seq<string>, ms: seq<ItemMetrics>, lookback: int, w: int, now: int, batches: Batches)
    requires equipment == Equipment(points.Keys)
    requires Progress(points, equipment, {}, order, ms, lookback, w, now, batches)
    ensures Visited(points, order, ms, lookback, w)
    ensures batches == BatchesFor(order, ms, lookback, now)
    ensures forall item :: item in equipment ==> ItemResult(points, item, lookback, w).Success?
  {
    CountDistinct(order, equipment);
    forall item | item in equipment
      ensures ItemResult(points, item, lookback, w).Success?
    {
      var i :| 0 <= i < |order| && order[i] == item;
    }
  }

  lemma ResultsSnoc(points: map<string, seq<Sample>>, order: seq<string>, ms: seq<ItemMetrics>,
                    item: string, m: ItemMetrics, lookback: int, w: int)
    requires |ms| == |order|
    requires forall i :: 0 <= i < |order| ==> ItemResult(points, order[i], lookback, w) == Success(ms[i])
    requires ItemResult(points, item, lookback, w) == Success(m)
    ensures forall i :: 0 <= i < |order + [item]| ==>
      ItemResult(points, (order + [item])[i], lookback, w) == Success((ms + [m])[i])
  {
  }

  /** Visiting one more item appends its record to each of the five batches. */
  lemma BatchesForSnoc(items: seq<string>, ms: seq<ItemMetrics>, item: string, m: ItemMetrics, lookback: int, now: int)
    requires |ms| == |items|
    requires forall i :: 0 <= i < |ms| ==> Covers(ms[i], lookback)
    requires Covers(m, lookback)
    ensures forall i :: 0 <= i < |ms + [m]| ==> Covers((ms + [m])[i], lookback)
    ensures var b := BatchesFor(items, ms, lookback, now);
      BatchesFor(items + [item], ms + [m], lookback, now) == Batches(
        b.offSpec + [ItemRecord(item, m, OffSpec, lookback, now)],
        b.quality + [ItemRecord(item, m, Quality, lookback, now)],
        b.performance + [ItemRecord(item, m, Performance, lookback, now)],
        b.availability + [ItemRecord(item, m, Availability, lookback, now)],
        b.oee + [ItemRecord(item, m, Oee, lookback, now)])
  {
    RecordsSnoc(items, ms, item, m, OffSpec, lookback, now);
    RecordsSnoc(items, ms, item, m, Quality, lookback, now);
    RecordsSnoc(items, ms, item, m, Performance, lookback, now);
    RecordsSnoc(items, ms, item, m, Availability, lookback, now);
    RecordsSnoc(items, ms, item, m, Oee, lookback, now);
  }

  /** Appending an item appends its record to a metric's batch. */
  lemma RecordsSnoc(items: seq<string>, ms: seq<ItemMetrics>, item: string, m: ItemMetrics, k: Metric,
                    lookback: int, now: int)
    requires |ms| == |items|
    requires forall i :: 0 <= i < |ms| ==> Covers(ms[i], lookback)
    requires Covers(m, lookback)
    ensures forall i :: 0 <= i < |ms + [m]| ==> Covers((ms + [m])[i], lookback)
    ensures Records(items + [item], ms + [m], k, lookback, now) ==
      Records(items, ms, k, lookback, now) + [ItemRecord(item, m, k, lookback, now)]
  {
    var lhs := Records(items + [item], ms + [m], k, lookback, now);
    var rhs := Records(items, ms, k, lookback, now) + [ItemRecord(item, m, k, lookback, now)];
    forall i | 0 <= i < |lhs|
      ensures lhs[i] == rhs[i]
    {
      if i < |items| {
        assert (items + [item])[i] == items[i] && (ms + [m])[i] == ms[i];
      }
    }
  }

  /** The ids a batch writes are exactly `<item><suffix>` for the items,
      and distinct items give distinct ids. */
  lemma RecordIds(items: seq<string>, ms: seq<ItemMetrics>, k: Metric, lookback: int, now: int)
    requires |ms| == |items|
    requires forall i :: 0 <= i < |ms| ==> Covers(ms[i], lookback)
    ensures var rs := Records(items, ms, k, lookback, now);
      && ReferencedIds(rs) == (set item | item in items :: item + Suffix(k))
      && ((forall i, j :: 0 <= i < j < |items| ==> items[i] != items[j]) ==>
           (forall i, j :: 0 <= i < j < |rs| ==> rs[i].externalId != rs[j].externalId))
  {
    var rs := Records(items, ms, k, lookback, now);
    forall i, j | 0 <= i < |items| && 0 <= j < |items| && items[i] + Suffix(k) == items[j] + Suffix(k)
      ensures items[i] == items[j]
    {
      var x, y := items[i] + Suffix(k), items[j] + Suffix(k);
      assert x[..|items[i]|] == items[i];
      assert y[..|items[j]|] == items[j];
    }
    assert forall i :: 0 <= i < |rs| ==> rs[i].externalId == items[i] + Suffix(k);
  }

  /** Visiting one more item keeps the visited order duplicate-free and
      the visited and remaining items a partition of the equipment. */
  lemma VisitOne(order: seq<string>, item: string, remaining: set<string>, equipment: set<string>)
    requires item in remaining && remaining <= equipment
    requires forall i :: 0 <= i < |order| ==> order[i] in equipment && order[i] !in remaining
    requires forall i, j :: 0 <= i < j < |order| ==> order[i] != order[j]
    requires forall x :: x in equipment ==> x in remaining || x in order
    ensures var o, r := order + [item], remaining - {item};
      && (forall i :: 0 <= i < |o| ==> o[i] in equipment && o[i] !in r)
      && (forall i, j :: 0 <= i < j < |o| ==> o[i] != o[j])
      && (forall x :: x in equipment ==> x in r || x in o)
  {
  }

  /** A duplicate-free sequence that covers a set exactly has its size. */
  lemma {:induction false} CountDistinct(order: seq<string>, s: set<string>)
    requires forall i, j :: 0 <= i < j < |order| ==> order[i] != order[j]
    requires forall i :: 0 <= i < |order| ==> order[i] in s
    requires forall x :: x in s ==> x in order
    ensures |order| == |s|
    decreases |order|
  {
    if order == [] {
      assert s == {};
    } else {
      var n := |order| - 1;
      var rest := s - {order[n]};
      forall x | x in rest
        ensures x in order[..n]
      {
        var k :| 0 <= k < |order| && order[k] == x;
        assert k != n;
      }
      CountDistinct(order[..n], rest);
    }
  }

  lemma ListedMonotone(a: set<Series>, b: set<Series>, dataSetId: int, typ: string)
    requires a <= b
    ensures ListedIds(a, dataSetId, typ) <= ListedIds(b, dataSetId, typ)
  {
  }

  /** The store can take all five batches: an id of a batch that the store
      already holds is listed under the batch's data set and type, and no
      id is written by two batches. */
  predicate Writable(ss: set<Series>, b: Batches, dataSetId: int)
  {
    && (forall k :: ReferencedIds(Batch(b, k)) * IdsOf(ss) <= ListedIds(ss, dataSetId, TypeName(k)))
    && (forall k, k' :: k != k' ==> ReferencedIds(Batch(b, k)) !! ReferencedIds(Batch(b, k')))
  }

  /** The ids of the batches of the metrics in `done`. */
  function Written(b: Batches, done: set<Metric>): set<string>
  {
    set k, id | k in done && id in ReferencedIds(Batch(b, k)) :: id
  }

  /** `Writable` restricted to the batches of the metrics in `done`. */
  predicate WritableAmong(ss: set<Series>, b: Batches, dataSetId: int, done: set<Metric>)
  {
    && (forall k :: k in done ==> ReferencedIds(Batch(b, k)) * IdsOf(ss) <= ListedIds(ss, dataSetId, TypeName(k)))
    && (forall k, k' :: k in done && k' in done && k != k' ==>
          ReferencedIds(Batch(b, k)) !! ReferencedIds(Batch(b, k')))
  }

  /** Starting from `s0`, the store has only grown, only by ids of the
      batches of the metrics in `done`, and it lists every id of those
      batches under their types; those batches were writable in `s0`. */
  predicate Stage(s0: set<Series>, s: set<Series>, b: Batches, dataSetId: int, done: set<Metric>)
  {
    && s0 <= s && IdsOf(s) <= IdsOf(s0) + Written(b, done)
    && (forall k :: k in done ==> ReferencedIds(Batch(b, k)) <= ListedIds(s, dataSetId, TypeName(k)))
    && WritableAmong(s0, b, dataSetId, done)
  }

  /** A batch of a writable set of batches is still accepted after the
      batches of the other metrics in `done` have been written. */
  lemma StillWritable(s0: set<Series>, s: set<Series>, b: Batches, k: Metric, dataSetId: int, done: set<Metric>)
    requires Writable(s0, b, dataSetId) && Stage(s0, s, b, dataSetId, done) && k !in done
    ensures MissingIds(Batch(b, k), ListedIds(s, dataSetId, TypeName(k))) !! IdsOf(s)
  {
    ListedMonotone(s0, s, dataSetId, TypeName(k));
    forall id | id in ReferencedIds(Batch(b, k))
      ensures id !in Written(b, done)
    {
      forall k' | k' in done
        ensures id !in ReferencedIds(Batch(b, k'))
      {
      }
    }
  }

  /** Writing the batch of metric `k`, which the store accepted in `s1`,
      adds at most its ids and lists them all; and the batch was writable
      in `s0` together with the batches written before it. */
  lemma NextStage(s0: set<Series>, s1: set<Series>, s2: set<Series>, b: Batches, dataSetId: int, k: Metric,
                  done: set<Metric>)
    requires Stage(s0, s1, b, dataSetId, done) && s1 <= s2 && k !in done && UniqueIds(s1)
    requires MissingIds(Batch(b, k), ListedIds(s1, dataSetId, TypeName(k))) !! IdsOf(s1)
    requires IdsOf(s2) <= IdsOf(s1) + ReferencedIds(Batch(b, k))
    requires ReferencedIds(Batch(b, k)) <= ListedIds(s2, dataSetId, TypeName(k))
    ensures Stage(s0, s2, b, dataSetId, done + {k})
  {
    WrittenGrows(b, done, k);
    ListedStays(s1, s2, b, dataSetId, done);
    WritableGrows(s0, s1, b, dataSetId, k, done);
  }

  /** Batches listed in `s1` stay listed in a larger store. */
  lemma ListedStays(s1: set<Series>, s2: set<Series>, b: Batches, dataSetId: int, done: set<Metric>)
    requires s1 <= s2
    requires forall k :: k in done ==> ReferencedIds(Batch(b, k)) <= ListedIds(s1, dataSetId, TypeName(k))
    ensures forall k :: k in done ==> ReferencedIds(Batch(b, k)) <= ListedIds(s2, dataSetId, TypeName(k))
  {
    forall k | k in done
      ensures ReferencedIds(Batch(b, k)) <= ListedIds(s2, dataSetId, TypeName(k))
    {
      ListedMonotone(s1, s2, dataSetId, TypeName(k));
    }
  }

  /** A batch the store accepts after the batches of `done` were written
      was writable in `s0` together with them. */
  lemma WritableGrows(s0: set<Series>, s1: set<Series>, b: Batches, dataSetId: int, k: Metric, done: set<Metric>)
    requires s0 <= s1 && UniqueIds(s1) && k !in done
    requires WritableAmong(s0, b, dataSetId, done)
    requires forall k' :: k' in done ==> ReferencedIds(Batch(b, k')) <= ListedIds(s1, dataSetId, TypeName(k'))
    requires MissingIds(Batch(b, k), ListedIds(s1, dataSetId, TypeName(k))) !! IdsOf(s1)
    ensures WritableAmong(s0, b, dataSetId, done + {k})
  {
    AcceptedWasListed(s0, s1, Batch(b, k), dataSetId, TypeName(k));
    forall k' | k' in done
      ensures ReferencedIds(Batch(b, k')) !! ReferencedIds(Batch(b, k))
    {
      TypeNamesDiffer(k, k');
      ListedElsewhere(s1, Batch(b, k'), Batch(b, k), dataSetId, TypeName(k'), TypeName(k));
    }
  }

  lemma WrittenGrows(b: Batches, done: set<Metric>, k: Metric)
    ensures Written(b, done + {k}) == Written(b, done) + ReferencedIds(Batch(b, k))
  {
  }

  /** An accepted batch's ids that the store already held before are
      listed under the type from the start. */
  lemma AcceptedWasListed(s0: set<Series>, s1: set<Series>, records: seq<Record>, dataSetId: int, typ: string)
    requires s0 <= s1 && UniqueIds(s1)
    requires MissingIds(records, ListedIds(s1, dataSetId, typ)) !! IdsOf(s1)
    ensures ReferencedIds(records) * IdsOf(s0) <= ListedIds(s0, dataSetId, typ)
  {
    forall id | id in ReferencedIds(records) && id in IdsOf(s0)
      ensures id in ListedIds(s0, dataSetId, typ)
    {
      var y :| y in s0 && y.externalId == id;
      assert id in ListedIds(s1, dataSetId, typ);
      var x :| x in s1 && x.externalId == id && x.dataSetId == dataSetId && x.typ == typ;
      assert x == y;
    }
  }

  /** Ids listed under one type are never missing-free under another:
      an accepted batch shares no id with a batch listed under a
      different type. */
  lemma ListedElsewhere(s1: set<Series>, listed: seq<Record>, records: seq<Record>, dataSetId: int,
                        typ: string, typ': string)
    requires UniqueIds(s1) && typ != typ'
    requires ReferencedIds(listed) <= ListedIds(s1, dataSetId, typ)
    requires MissingIds(records, ListedIds(s1, dataSetId, typ')) !! IdsOf(s1)
    ensures ReferencedIds(listed) !! ReferencedIds(records)
  {
    forall id | id in ReferencedIds(listed)
      ensures id !in ReferencedIds(records)
    {
      var x :| x in s1 && x.externalId == id && x.dataSetId == dataSetId && x.typ == typ;
      forall y | y in s1 && y.externalId == id
        ensures y.typ != typ'
      {
        assert y == x;
      }
      assert id !in ListedIds(s1, dataSetId, typ');
    }
  }

  /** Different metrics are written under different types. */
  lemma TypeNamesDiffer(k: Metric, k': Metric)
    requires k != k'
    ensures TypeName(k) != TypeName(k')
  {
    assert |TypeName(k)| != |TypeName(k')|;
  }

  /** The metrics the first `n` upserts write. */
  function DoneSet(n: nat): set<Metric>
    requires n <= 5
  {
    if n == 0 then {} else DoneSet(n - 1) + {CallAt(n - 1)}
  }

  /** The upsert at position `n` writes a metric not written before it. */
  lemma NotYetDone(n: nat)
    requires n < 5
    ensures CallAt(n) !in DoneSet(n)
  {
    if n == 4 {
      assert DoneSet(4) == {Performance, Quality, Availability, OffSpec};
    } else if n == 3 {
      assert DoneSet(3) == {Performance, Quality, Availability};
    }
  }

  /** What the store holds after a sequence of upserts, and whether every
      one of them went through. */
  datatype Outcome = Outcome(ok: bool, series: set<Series>, inserted: seq<Record>)

  /** The upserts from position `n` of the call order on, applied to a store
      holding `series` and `inserted`: each call that goes through creates
      the missing series and appends its batch, and the first refusal
      stops the sequence. */
  function UpsertsFrom(series: set<Series>, inserted: seq<Record>, b: Batches, dataSetId: int, n: nat): Outcome
    requires n <= 5
    decreases 5 - n
  {
    if n == 5 then Outcome(true, series, inserted)
    else
      var k := CallAt(n);
      if !Accepts(series, Batch(b, k), TypeName(k), dataSetId) then Outcome(false, series, inserted)
      else UpsertsFrom(SeriesAfter(series, Batch(b, k), TypeName(k), dataSetId), inserted + Batch(b, k),
                       b, dataSetId, n + 1)
  }

  /** The upserts from position `n` on, after the first `n` have gone
      through from a store holding `s0` and `i0`: they all go through
      exactly when the batches were writable in `s0`, and then every batch
      is listed under its type and all five are appended in order; a
      refusal leaves the batches of the earlier calls appended; and every
      series created is one the batches call for. */
  lemma {:induction false} UpsertsFromSpec(s0: set<Series>, i0: seq<Record>, series: set<Series>,
                                           inserted: seq<Record>, b: Batches, dataSetId: int, n: nat)
    requires n <= 5 && UniqueIds(series)
    requires Stage(s0, series, b, dataSetId, DoneSet(n))
    requires OnlyCreatedFor(s0, series, b, dataSetId)
    requires inserted == i0 + Appended(b, n)
    ensures var o := UpsertsFrom(series, inserted, b, dataSetId, n);
      && series <= o.series && UniqueIds(o.series)
      && OnlyCreatedFor(s0, o.series, b, dataSetId)
      && (o.ok <==> Writable(s0, b, dataSetId))
      && (o.ok ==> o.inserted == i0 + Appended(b, 5))
      && (o.ok ==> forall k :: ReferencedIds(Batch(b, k)) <= ListedIds(o.series, dataSetId, TypeName(k)))
      && (!o.ok ==> exists m :: n <= m < 5 && o.inserted == i0 + Appended(b, m))
    decreases 5 - n
  {
    if n == 5 {
      assert DoneSet(5) == {Performance, Quality, Availability, OffSpec, Oee};
      Finished(s0, series, b, dataSetId, DoneSet(5));
    } else {
      var k := CallAt(n);
      var done := DoneSet(n);
      NotYetDone(n);
      if Writable(s0, b, dataSetId) {
        StillWritable(s0, series, b, k, dataSetId, done);
      }
      if Accepts(series, Batch(b, k), TypeName(k), dataSetId) {
        var listed := ListedIds(series, dataSetId, TypeName(k));
        var after := SeriesAfter(series, Batch(b, k), TypeName(k), dataSetId);
        AcceptedSeries(series, Batch(b, k), TypeName(k), dataSetId);
        CreatedSeriesAreListed(series, Batch(b, k), TypeName(k), dataSetId);
        NextStage(s0, series, after, b, dataSetId, k, done);
        CreatedStep(s0, series, b, k, listed, dataSetId);
        AppendedStep(b, i0, n);
        UpsertsFromSpec(s0, i0, after, inserted + Batch(b, k), b, dataSetId, n + 1);
      }
    }
  }

  /** The five `insert_datapoints` calls of handler.py:154-158, in the
      source's order: performance, quality, availability, off-spec, OEE.
      The first refusal by the store stops the sequence; until then every
      batch is appended in that order and all of its ids are listed under
      the metric's type. */
  method UpsertBatches(store: Store, b: Batches, dataSetId: int) returns (ok: bool)
    requires store.Valid()
    modifies store
    ensures store.Valid()
    ensures Outcome(ok, store.series, store.inserted) ==
      UpsertsFrom(old(store.series), old(store.inserted), b, dataSetId, 0)
    ensures old(store.series) <= store.series
    ensures ok ==> (store.inserted ==
      old(store.inserted) + b.performance + b.quality + b.availability + b.offSpec + b.oee)
    ensures ok ==> forall k :: ReferencedIds(Batch(b, k)) <= store.List(dataSetId, TypeName(k))
    ensures ok <==> Writable(old(store.series), b, dataSetId)
    ensures !ok ==> exists n :: 0 <= n < 5 && store.inserted == old(store.inserted) + Appended(b, n)
    ensures OnlyCreatedFor(old(store.series), store.series, b, dataSetId)
  {
    ghost var s0, i0 := store.series, store.inserted;
    assert i0 == i0 + Appended(b, 0);
    UpsertsFromSpec(s0, i0, s0, i0, b, dataSetId, 0);
    AppendedFields(b, i0);
    ghost var outcome := UpsertsFrom(s0, i0, b, dataSetId, 0);
    ok := InsertBatch(store, b, Performance, dataSetId);
    if !ok { return; }
    assert outcome == UpsertsFrom(store.series, store.inserted, b, dataSetId, 1);
    ok := InsertBatch(store, b, Quality, dataSetId);
    if !ok { return; }
    assert outcome == UpsertsFrom(store.series, store.inserted, b, dataSetId, 2);
    ok := InsertBatch(store, b, Availability, dataSetId);
    if !ok { return; }
    assert outcome == UpsertsFrom(store.series, store.inserted, b, dataSetId, 3);
    ok := InsertBatch(store, b, OffSpec, dataSetId);
    if !ok { return; }
    assert outcome == UpsertsFrom(store.series, store.inserted, b, dataSetId, 4);
    ok := InsertBatch(store, b, Oee, dataSetId);
  }

  /** Once all five batches are written, they were writable from the
      start and all of them are listed. */
  lemma Finished(s0: set<Series>, s: set<Series>, b: Batches, dataSetId: int, done: set<Metric>)
    requires Stage(s0, s, b, dataSetId, done)
    requires Performance in done && Quality in done && Availability in done && OffSpec in done && Oee in done
    ensures Writable(s0, b, dataSetId)
    ensures forall k :: ReferencedIds(Batch(b, k)) <= ListedIds(s, dataSetId, TypeName(k))
  {
    forall k
      ensures k in done
    {
      match k
      case OffSpec =>
      case Quality =>
      case Performance =>
      case Availability =>
      case Oee =>
    }
  }

  /** No series the site writes is held under another data set or type:
      whenever the store has `<item><suffix of k>`, it lists it under the
      type of `k`. */
  predicate Unclaimed(ss: set<Series>, items: set<string>, dataSetId: int)
  {
    forall item, k :: item in items && OutputId(item, k) in IdsOf(ss) ==>
      OutputId(item, k) in ListedIds(ss, dataSetId, TypeName(k))
  }

  /** Items without a colon cannot share an output id across metrics: the
      first colon of `<item><suffix>` ends the item. */
  lemma OutputIdsDistinct(x: string, y: string, k: Metric, k': Metric)
    requires ':' !in x && ':' !in y && k != k'
    ensures OutputId(x, k) != OutputId(y, k')
  {
    var u, v := OutputId(x, k), OutputId(y, k');
    if |x| < |y| {
      assert u[|x|] == ':' && v[|x|] == y[|x|];
    } else if |y| < |x| {
      assert v[|y|] == ':' && u[|y|] == x[|y|];
    } else {
      assert u[|x|..] == Suffix(k) && v[|x|..] == Suffix(k');
    }
  }

  /** The batches built for colon-free equipment items, every item at
      least once, are writable exactly when the store is unclaimed for
      them: their ids are `<item><suffix>`, and the five batches share
      none. */
  lemma BatchesWritable(ss: set<Series>, items: seq<string>, ms: seq<ItemMetrics>, lookback: int, now: int,
                        equipment: set<string>, dataSetId: int)
    requires |ms| == |items|
    requires forall i :: 0 <= i < |ms| ==> Covers(ms[i], lookback)
    requires forall i :: 0 <= i < |items| ==> items[i] in equipment
    requires forall e :: e in equipment ==> e in items
    requires forall e :: e in equipment ==> ':' !in e
    ensures Writable(ss, BatchesFor(items, ms, lookback, now), dataSetId) <==> Unclaimed(ss, equipment, dataSetId)
  {
    var b := BatchesFor(items, ms, lookback, now);
    forall k
      ensures ReferencedIds(Batch(b, k)) == set item | item in items :: OutputId(item, k)
    {
      RecordIds(items, ms, k, lookback, now);
      assert Batch(b, k) == Records(items, ms, k, lookback, now);
    }
    forall k, k' | k != k'
      ensures ReferencedIds(Batch(b, k)) !! ReferencedIds(Batch(b, k'))
    {
      forall id | id in ReferencedIds(Batch(b, k))
        ensures id !in ReferencedIds(Batch(b, k'))
      {
        var x :| x in items && id == OutputId(x, k);
        forall y | y in items
          ensures id != OutputId(y, k')
        {
          OutputIdsDistinct(x, y, k, k');
        }
      }
    }
    if Writable(ss, b, dataSetId) {
      forall item, k | item in equipment && OutputId(item, k) in IdsOf(ss)
        ensures OutputId(item, k) in ListedIds(ss, dataSetId, TypeName(k))
      {
        assert OutputId(item, k) in ReferencedIds(Batch(b, k));
      }
    }
  }

  /** `insert_datapoints(client, <batch of k>, <type of k>, data_set_id)`:
      the store refuses the batch exactly when an id it would create is
      taken and is then left as it was; otherwise the missing series are
      created, the batch is appended and every id it names is listed under
      the type. */
  method InsertBatch(store: Store, b: Batches, k: Metric, dataSetId: int) returns (ok: bool)
    requires store.Valid()
    modifies store
    ensures store.Valid()
    ensures ok <==> MissingIds(Batch(b, k), old(store.List(dataSetId, TypeName(k)))) !! old(store.Ids())
    ensures ok ==> (store.series ==
      old(store.series) + NewSeries(MissingIds(Batch(b, k), old(store.List(dataSetId, TypeName(k)))), TypeName(k), dataSetId))
    ensures ok ==> store.inserted == old(store.inserted) + Batch(b, k)
    ensures ok ==> ReferencedIds(Batch(b, k)) <= store.List(dataSetId, TypeName(k))
    ensures !ok ==> store.series == old(store.series) && store.inserted == old(store.inserted)
    ensures ok == Accepts(old(store.series), Batch(b, k), TypeName(k), dataSetId)
    ensures store.series == SeriesAfter(old(store.series), Batch(b, k), TypeName(k), dataSetId)
  {
    ok := InsertDatapoints(store, Batch(b, k), TypeName(k), dataSetId);
  }

  /** handler.process_site once the store has been read: reconstruct the
      series, build the five batches, then upsert them. A site whose
      series are missing or inconsistent leaves the store as it was; on
      success the batches hold one record per equipment item for each
      metric, built from that item's metrics, in the order `order`. */
  method ProcessSite(store: Store, retrieved: GapFill.Retrieved, latest: map<string, seq<Sample>>,
                     dataSetId: int, lookback: int, now: int, windowStart: int, windowEnd: int, w: int)
    returns (res: Result<Batches, SiteError>, order: seq<string>, ms: seq<ItemMetrics>)
    requires store.Valid()
    modifies store
    ensures store.Valid()
    ensures old(store.series) <= store.series
    ensures res.Failure? && res.error != StoreRejected <==>
      !AllItemsCompute(GapFill.Discovered(retrieved, latest, windowStart, windowEnd), lookback, w)
    ensures res.Success? || res.error == StoreRejected ==>
      Visited(GapFill.Discovered(retrieved, latest, windowStart, windowEnd), order, ms, lookback, w)
    ensures res.Success? ==> res.value == BatchesFor(order, ms, lookback, now)
    ensures res.Failure? && res.error != StoreRejected ==>
      store.series == old(store.series) && store.inserted == old(store.inserted)
    ensures res.Success? ==> (store.inserted ==
      old(store.inserted) + res.value.performance + res.value.quality + res.value.availability
        + res.value.offSpec + res.value.oee)
    ensures res.Success? ==> forall k :: ReferencedIds(Batch(res.value, k)) <= store.List(dataSetId, TypeName(k))
    ensures res.Success? || res.error == StoreRejected ==>
      OnlyCreatedFor(old(store.series), store.series, BatchesFor(order, ms, lookback, now), dataSetId)
    ensures res.Failure? && res.error == StoreRejected ==>
      exists n :: 0 <= n < 5 &&
        store.inserted == old(store.inserted) + Appended(BatchesFor(order, ms, lookback, now), n)
    ensures var points := GapFill.Discovered(retrieved, latest, windowStart, windowEnd);
      res.Success? <==>
        AllItemsCompute(points, lookback, w) && Unclaimed(old(store.series), Equipment(points.Keys), dataSetId)
  {
    var points := GapFill.DiscoverDatapoints(retrieved, latest, windowStart, windowEnd);
    var built;
    built, order, ms := BuildBatches(points, lookback, now, w);
    if built.Failure? {
      ghost var item :| item in Equipment(points.Keys) && ItemResult(points, item, lookback, w) == Failure(built.error);
      ItemErrorIsNotStore(points, item, lookback, w);
      return Failure(built.error), order, ms;
    }
    BatchesWritable(store.series, order, ms, lookback, now, Equipment(points.Keys), dataSetId);
    var ok := UpsertBatches(store, built.value, dataSetId);
    if !ok {
      return Failure(StoreRejected), order, ms;
    }
    res := built;
  }

  /** Python's `round(n / d)` for d > 0: the nearest integer, halves going
      to the even neighbour. */
  function RoundHalfEven(n: int, d: int): (r: int)
    requires d > 0
    ensures -d <= 2 * (n - r * d) <= d
    ensures 2 * (n - r * d) == d || 2 * (n - r * d) == -d ==> r % 2 == 0
  {
    var q, m := n / d, n % d;
    assert n - q * d == m && 0 <= m < d;
    assert n - (q + 1) * d == m - d;
    if 2 * m < d then q
    else if 2 * m > d then q + 1
    else if q % 2 == 0 then q else q + 1
  }

  /** The start of a unit's read range: `_range[0].shift(minutes=-window_size)`. */
  function ReadStart(rangeStart: int, w: int): int
  {
    rangeStart - w * MINUTE_MS
  }

  /** The lookback handed to process_site:
      `round((process_range[1] - process_range[0]) / 1 minute) - window_size`. */
  function UnitLookback(rangeStart: int, rangeEnd: int, w: int): int
  {
    RoundHalfEven(rangeEnd - ReadStart(rangeStart, w), MINUTE_MS) - w
  }

  /** For a range of whole minutes the unit's lookback is the number of
      minutes in the range, and lookback + window_size is the number of
      minutes in the read range. `handle` does not build such ranges (see
      UnitLookbackSpanEnd); this is the case of a window given by hand. */
  lemma UnitLookbackAligned(rangeStart: int, rangeEnd: int, w: int)
    requires (rangeEnd - rangeStart) % MINUTE_MS == 0
    ensures UnitLookback(rangeStart, rangeEnd, w) == (rangeEnd - rangeStart) / MINUTE_MS
    ensures UnitLookback(rangeStart, rangeEnd, w) + w == (rangeEnd - ReadStart(rangeStart, w)) / MINUTE_MS
  {
    var k := (rangeEnd - rangeStart) / MINUTE_MS;
    assert rangeEnd - ReadStart(rangeStart, w) == (k + w) * MINUTE_MS;
  }

  /** Rounding a count of minutes that falls just short of a whole number. */
  lemma RoundJustBelow(n: int)
    ensures RoundHalfEven(n * MINUTE_MS - 1, MINUTE_MS) == n
  {
    var x := n * MINUTE_MS - 1;
    assert x == (n - 1) * MINUTE_MS + (MINUTE_MS - 1);
    assert x / MINUTE_MS == n - 1 && x % MINUTE_MS == MINUTE_MS - 1;
  }

  /** The day ranges of `Arrow.span_range` (handler.py:52) start on a whole
      minute and end just before one (bounds "[)"): the range end is taken
      here as one millisecond before the minute `rangeEnd`. Then the unit's
      lookback is the number of minutes in the day range, and the status
      grid over the read range has exactly lookback + window_size points:
      the end minute of the grid is the last minute inside the range. */
  lemma UnitLookbackSpanEnd(rangeStart: int, rangeEnd: int, w: int)
    requires rangeStart % MINUTE_MS == 0 && rangeEnd % MINUTE_MS == 0
    requires rangeStart < rangeEnd && w >= 0
    ensures UnitLookback(rangeStart, rangeEnd - 1, w) == (rangeEnd - rangeStart) / MINUTE_MS
    ensures GapFill.GridCount(ReadStart(rangeStart, w), rangeEnd - 1) == UnitLookback(rangeStart, rangeEnd - 1, w) + w
  {
    var k := (rangeEnd - rangeStart) / MINUTE_MS;
    var readStart := ReadStart(rangeStart, w);
    assert rangeEnd - rangeStart == k * MINUTE_MS;
    assert rangeEnd - 1 - readStart == (k + w) * MINUTE_MS - 1;
    RoundJustBelow(k + w);
    assert readStart % MINUTE_MS == 0;
    GapFill.SpanEndGrid(readStart, rangeEnd);
    assert (rangeEnd - readStart) / MINUTE_MS == k + w;
  }

  /** For the ranges `handle` builds, the status and planned-status grids
      have the length process_site expects, so an item whose count and good
      series hold one bucket per minute of the read range passes both
      length checks. */
  lemma SpanEndGridPassesCheck(rangeStart: int, rangeEnd: int, w: int,
                               count: seq<real>, good: seq<real>, status: seq<real>, planned: seq<real>)
    requires rangeStart % MINUTE_MS == 0 && rangeEnd % MINUTE_MS == 0
    requires w >= 1 && rangeStart < rangeEnd
    requires |status| == GapFill.GridCount(ReadStart(rangeStart, w), rangeEnd - 1)
    requires |planned| == |status| && |count| == |status| && |good| == |status|
    ensures ComputeItem(count, good, status, planned, UnitLookback(rangeStart, rangeEnd - 1, w), w).Success?
  {
    UnitLookbackSpanEnd(rangeStart, rangeEnd, w);
  }

  /** For a read range ending exactly on a minute (not one `handle` builds),
      the reconstructed status series has one point more than the length
      process_site expects (the grid includes the end minute), so the
      length checks reject every item whose count series has at most one
      bucket per minute of the read range. */
  lemma AlignedStatusGridFailsCheck(rangeStart: int, rangeEnd: int, w: int,
                                    count: seq<real>, good: seq<real>, status: seq<real>, planned: seq<real>)
    requires rangeStart % MINUTE_MS == 0 && rangeEnd % MINUTE_MS == 0
    requires w >= 0 && rangeStart <= rangeEnd
    requires |status| == GapFill.GridCount(ReadStart(rangeStart, w), rangeEnd)
    requires |count| <= (rangeEnd - ReadStart(rangeStart, w)) / MINUTE_MS
    ensures ComputeItem(count, good, status, planned, UnitLookback(rangeStart, rangeEnd, w), w).Failure?
  {
    AlignedGridLength(rangeStart, rangeEnd, w);
    assert |status| != |count|;
  }

  /** The arithmetic behind AlignedStatusGridFailsCheck. */
  lemma AlignedGridLength(rangeStart: int, rangeEnd: int, w: int)
    requires rangeStart % MINUTE_MS == 0 && rangeEnd % MINUTE_MS == 0
    requires w >= 0 && rangeStart <= rangeEnd
    ensures GapFill.GridCount(ReadStart(rangeStart, w), rangeEnd) ==
      (rangeEnd - ReadStart(rangeStart, w)) / MINUTE_MS + 1
  {
    var readStart := ReadStart(rangeStart, w);
    assert readStart % MINUTE_MS == 0;
    GapFill.AlignedGridIncludesEnd(readStart, rangeEnd);
  }
}

=== FILE: keyed.dfy ===
/** Sequences of keys read into a dict from left to right, where a later
    entry with the same key overwrites an earlier one. */
module Keyed {
  /** No later entry of `keys` equals entry `i`. */
  predicate LastOccurrence<K(==)>(keys: seq<K>, i: int)
    requires 0 <= i < |keys|
  {
    forall j :: i < j < |keys| ==> keys[j] != keys[i]
  }

  /** Dropping the final entry keeps entry `i` the last of its key, and the
      final entry has a different key. */
  lemma LastInPrefix<K>(keys: seq<K>, i: int)
    requires 0 <= i < |keys| - 1 && LastOccurrence(keys, i)
    ensures LastOccurrence(keys[..|keys| - 1], i)
    ensures keys[|keys| - 1] != keys[i]
  {
  }
}

=== FILE: metrics.dfy ===
/** The array arithmetic of `process_site` and `get_payload` (handler.py):
    trailing rolling sums (numpy `convolve(x, ones(w), "valid")[1:]`), the
    five metric arrays with numpy's `divide(..., where=den != 0)` policy,
    and the minute grid of timestamps laid over a metric array. */
module Metrics {
  import opened Samples
  import opened Wrappers

  /** `60.0 / 3.0`: the ideal production rate per minute (handler.py:103). */
  const IDEAL_RATE: real := 60.0 / 3.0

  /** Why `process_site` raises for one equipment item. */
  datatype SiteError =
    | DifferentAmount                      // RuntimeError, handler.py:86-91
    | InaccurateAmount(got: int, expected: int)   // RuntimeError, handler.py:93-97
    | InvalidWindow                        // numpy ValueError for an empty or negative shape
    | MissingSeries                        // IndexError indexing a missing or empty series
    | StoreRejected                        // the store refused a create or insert

  /** The five arrays reported for one equipment item. */
  datatype ItemMetrics = ItemMetrics(
    offSpec: seq<real>, quality: seq<real>, performance: seq<real>,
    availability: seq<real>, oee: seq<real>)

  function Sum(s: seq<real>): real
  {
    if s == [] then 0.0 else Sum(s[..|s| - 1]) + s[|s| - 1]
  }

  lemma {:induction false} SumConcat(a: seq<real>, b: seq<real>)
    ensures Sum(a + b) == Sum(a) + Sum(b)
    decreases |b|
  {
    if b == [] {
      assert a + b == a;
    } else {
      SumConcat(a, b[..|b| - 1]);
      assert (a + b)[..|a + b| - 1] == a + b[..|b| - 1];
      assert (a + b)[|a + b| - 1] == b[|b| - 1];
    }
  }

  /** `np.convolve(x, np.ones(w), "valid")`: one sum per full window. */
  function ValidConvolve(x: seq<real>, w: nat): (r: seq<real>)
    requires 1 <= w <= |x|
    ensures |r| == |x| - w + 1
  {
    seq(|x| - w + 1, k requires 0 <= k <= |x| - w => Sum(x[k..k + w]))
  }

  /** `np.convolve(x, np.ones(w), "valid")[1:]`. */
  function RollingSums(x: seq<real>, w: nat): (r: seq<real>)
    requires 1 <= w <= |x|
    ensures |r| == |x| - w
  {
    ValidConvolve(x, w)[1..]
  }

  /** Sum of the first n samples. */
  function Prefix(x: seq<real>, n: nat): real
    requires n <= |x|
  {
    Sum(x[..n])
  }

  /** Entry j of the rolling sums is the trailing window ending at index
      j + w, i.e. a difference of two prefix sums. */
  lemma RollingSumsArePrefixDifferences(x: seq<real>, w: nat, j: nat)
    requires 1 <= w <= |x| && j < |x| - w
    ensures RollingSums(x, w)[j] == Prefix(x, j + w + 1) - Prefix(x, j + 1)
  {
    assert x[..j + w + 1] == x[..j + 1] + x[j + 1..j + w + 1];
    SumConcat(x[..j + 1], x[j + 1..j + w + 1]);
  }

  /** Moving one minute on adds the sample entering the window and drops the
      one leaving it. */
  lemma RollingSumsSlide(x: seq<real>, w: nat, j: nat)
    requires 1 <= w <= |x| && j + 1 < |x| - w
    ensures RollingSums(x, w)[j + 1] == RollingSums(x, w)[j] + x[j + w + 1] - x[j + 1]
  {
    RollingSumsArePrefixDifferences(x, w, j);
    RollingSumsArePrefixDifferences(x, w, j + 1);
    assert x[..j + w + 2] == x[..j + w + 1] + [x[j + w + 1]];
    SumConcat(x[..j + w + 1], [x[j + w + 1]]);
    assert x[..j + 2] == x[..j + 1] + [x[j + 1]];
    SumConcat(x[..j + 1], [x[j + 1]]);
  }

  lemma {:induction false} SumMonotone(a: seq<real>, b: seq<real>)
    requires |a| == |b|
    requires forall i :: 0 <= i < |a| ==> a[i] <= b[i]
    ensures Sum(a) <= Sum(b)
    decreases |a|
  {
    if a != [] {
      SumMonotone(a[..|a| - 1], b[..|b| - 1]);
    }
  }

  lemma {:induction false} SumConstant(a: seq<real>, c: real)
    requires forall i :: 0 <= i < |a| ==> a[i] == c
    ensures Sum(a) == (|a| as real) * c
    decreases |a|
  {
    if a != [] {
      SumConstant(a[..|a| - 1], c);
    }
  }

  /** `np.divide(num, den, out=zeros, where=den != 0)` at one index. */
  function Ratio(num: real, den: real): (r: real)
    ensures den == 0.0 ==> r == 0.0
    ensures den != 0.0 ==> r * den == num
  {
    if den != 0.0 then num / den else 0.0
  }

  /** The arithmetic of handler.py:86-145 for one equipment item. */
  function ComputeItem(count: seq<real>, good: seq<real>, status: seq<real>, planned: seq<real>,
                       lookback: int, w: int): (res: Result<ItemMetrics, SiteError>)
    ensures res.Success? <==>
      |good| == |count| && |status| == |count| && |planned| == |count| &&
      |count| == lookback + w && w >= 1 && lookback >= 0
    ensures res.Success? ==>
      |res.value.offSpec| == lookback && |res.value.quality| == lookback &&
      |res.value.performance| == lookback && |res.value.availability| == lookback &&
      |res.value.oee| == lookback
    ensures res.Failure? && (|good| != |count| || |status| != |count| || |planned| != |count|) ==>
      res.error == DifferentAmount
  {
    if |count| != |good| || |count| != |status| || |count| != |planned| then Failure(DifferentAmount)
    else if |count| != lookback + w then Failure(InaccurateAmount(|count|, lookback + w))
    else if w < 1 || lookback < 0 then Failure(InvalidWindow)
    else
      var badItems := seq(|count|, i requires 0 <= i < |count| => count[i] - good[i]);
      var quality := seq(|count|, i requires 0 <= i < |count| => Ratio(good[i], count[i]));
      var uptime := RollingSums(status, w);
      var produced := RollingSums(count, w);
      var plannedUptime := RollingSums(planned, w);
      var performance := seq(lookback, j requires 0 <= j < lookback =>
        Ratio(Ratio(produced[j], uptime[j]), IDEAL_RATE));
      var availability := seq(lookback, j requires 0 <= j < lookback => Ratio(uptime[j], plannedUptime[j]));
      var oee := seq(lookback, j requires 0 <= j < lookback => performance[j] * availability[j] * quality[w + j]);
      Success(ItemMetrics(badItems[w..], quality[w..], performance, availability, oee))
  }

  /** The five values of one reported minute, read off the raw per-minute
      inputs: off-spec and quality at index w + j, performance and
      availability from the trailing w-minute sums ending at index w + j,
      and the OEE as their product with the quality. */
  datatype Minute = Minute(offSpec: real, quality: real, performance: real, availability: real, oee: real)

  function MinuteMetrics(count: seq<real>, good: seq<real>, status: seq<real>, planned: seq<real>,
                         w: int, j: int): Minute
    requires 1 <= w && 0 <= j && j + w < |count|
    requires |good| == |count| && |status| == |count| && |planned| == |count|
  {
    var uptime := Sum(status[j + 1..j + w + 1]);
    var produced := Sum(count[j + 1..j + w + 1]);
    var plannedUptime := Sum(planned[j + 1..j + w + 1]);
    var quality := Ratio(good[w + j], count[w + j]);
    var performance := Ratio(Ratio(produced, uptime), IDEAL_RATE);
    var availability := Ratio(uptime, plannedUptime);
    Minute(count[w + j] - good[w + j], quality, performance, availability, performance * availability * quality)
  }

  /** Entry j of the five reported arrays is the minute computed from the
      raw inputs at index w + j: the `[window_size:]` slices and the `[1:]`
      of the convolution line up on the same trailing window. */
  lemma MetricsAt(count: seq<real>, good: seq<real>, status: seq<real>, planned: seq<real>,
                  lookback: int, w: int, j: int)
    requires ComputeItem(count, good, status, planned, lookback, w).Success?
    requires 0 <= j < lookback
    ensures var m := ComputeItem(count, good, status, planned, lookback, w).value;
      Minute(m.offSpec[j], m.quality[j], m.performance[j], m.availability[j], m.oee[j]) ==
        MinuteMetrics(count, good, status, planned, w, j)
  {
  }

  /** With consistent inputs the ratios stay in range: quality in [0, 1]
      when 0 <= good <= count, availability in [0, 1] when
      0 <= status <= planned, performance non-negative, and the OEE between
      0 and the performance. Off-spec is non-negative then too. */
  lemma MinuteInRange(count: seq<real>, good: seq<real>, status: seq<real>, planned: seq<real>, w: int, j: int)
    requires 1 <= w && 0 <= j && j + w < |count|
    requires |good| == |count| && |status| == |count| && |planned| == |count|
    requires forall i :: 0 <= i < |count| ==> 0.0 <= good[i] <= count[i]
    requires forall i :: 0 <= i < |count| ==> 0.0 <= status[i] <= planned[i]
    ensures var m := MinuteMetrics(count, good, status, planned, w, j);
      && 0.0 <= m.offSpec
      && 0.0 <= m.quality <= 1.0
      && 0.0 <= m.availability <= 1.0
      && 0.0 <= m.performance
      && 0.0 <= m.oee <= m.performance
  {
    var s, p, c := status[j + 1..j + w + 1], planned[j + 1..j + w + 1], count[j + 1..j + w + 1];
    WindowSumsInRange(s, p);
    WindowSumsInRange(c, c);
    RatioInUnit(good[w + j], count[w + j]);
    RatioInUnit(Sum(s), Sum(p));
    RatioNonNegative(Sum(c), Sum(s));
    RatioNonNegative(Ratio(Sum(c), Sum(s)), IDEAL_RATE);
    var m := MinuteMetrics(count, good, status, planned, w, j);
    ScaledByUnits(m.performance, m.availability, m.quality, m.oee);
  }

  /** Pointwise 0 <= x <= y carries over to the sums. */
  lemma WindowSumsInRange(x: seq<real>, y: seq<real>)
    requires |x| == |y|
    requires forall i :: 0 <= i < |x| ==> 0.0 <= x[i] <= y[i]
    ensures 0.0 <= Sum(x) <= Sum(y)
  {
    var zeros := seq(|x|, i => 0.0);
    SumConstant(zeros, 0.0);
    SumMonotone(zeros, x);
    SumMonotone(x, y);
  }

  lemma RatioInUnit(num: real, den: real)
    requires 0.0 <= num <= den
    ensures 0.0 <= Ratio(num, den) <= 1.0
  {
    if den != 0.0 {
      var r := num / den;
      assert r * den == num;
      assert (1.0 - r) * den == den - num;
    }
  }

  lemma RatioNonNegative(num: real, den: real)
    requires 0.0 <= num && 0.0 <= den
    ensures 0.0 <= Ratio(num, den)
  {
  }

  lemma ScaledByUnits(p: real, a: real, q: real, o: real)
    requires 0.0 <= p && 0.0 <= a <= 1.0 && 0.0 <= q <= 1.0
    requires o == p * a * q
    ensures 0.0 <= o <= p
  {
    assert a * q <= a * 1.0 by { assert a * (1.0 - q) >= 0.0; }
    var aq := a * q;
    assert p * a * q == p * aq;
    MulNonNegative(p, 1.0 - aq);
    MulNonNegative(p, aq);
  }

  lemma MulNonNegative(x: real, y: real)
    requires 0.0 <= x && 0.0 <= y
    ensures 0.0 <= x * y
  {
  }

  /** The OEE composition for constant signals: c items per minute (c > 0),
      g of them good, always running and always planned. Then quality is
      g / c, availability 1, performance c / 20, and the OEE is g / 20. */
  lemma ConstantSignals(count: seq<real>, good: seq<real>, status: seq<real>, planned: seq<real>,
                        w: int, j: int, c: real, g: real)
    requires 1 <= w && 0 <= j && j + w < |count|
    requires |good| == |count| && |status| == |count| && |planned| == |count|
    requires c > 0.0
    requires forall i :: 0 <= i < |count| ==> count[i] == c && good[i] == g && status[i] == 1.0 && planned[i] == 1.0
    ensures MinuteMetrics(count, good, status, planned, w, j) == Minute(c - g, g / c, c / 20.0, 1.0, g / 20.0)
  {
    SumConstant(status[j + 1..j + w + 1], 1.0);
    SumConstant(planned[j + 1..j + w + 1], 1.0);
    SumConstant(count[j + 1..j + w + 1], c);
    ConstantWindow(w as real, c, g);
  }

  /** The scalar arithmetic behind ConstantSignals: window sums ww * c,
      ww and ww give performance c / 20, availability 1 and OEE g / 20. */
  lemma ConstantWindow(ww: real, c: real, g: real)
    requires ww >= 1.0 && c > 0.0
    ensures var perf := Ratio(Ratio(ww * c, ww * 1.0), IDEAL_RATE);
      var avail := Ratio(ww * 1.0, ww * 1.0);
      var q := Ratio(g, c);
      && perf == c / 20.0 && avail == 1.0 && q == g / c
      && perf * avail * q == g / 20.0
  {
    assert (ww * c) / ww == c;
    assert (c / 20.0) * (g / c) == (c * g) / (20.0 * c);
  }

  /** The timestamps `range(floor(now - (lookback - 1) min), floor(now) + 1 min, 1 min)`. */
  function PayloadMinutes(lookback: int, now: int): seq<int>
  {
    MinuteRange(FloorMinute(now + (1 - lookback) * MINUTE_MS), FloorMinute(now) + MINUTE_MS)
  }

  /** handler.get_payload: pairs the minute grid ending at floor(now) with
      the first elements of the collection. */
  function GetPayload(collection: seq<real>, lookback: int, now: int): (r: seq<(int, real)>)
    requires lookback <= |collection|
    ensures |r| == if lookback >= 1 then lookback else 0
    ensures forall i :: 0 <= i < |r| ==>
      r[i] == (FloorMinute(now) - (lookback - 1 - i) * MINUTE_MS, collection[i])
    ensures |r| > 0 ==> r[|r| - 1].0 == FloorMinute(now)
  {
    var minutes := PayloadMinutes(lookback, now);
    FloorMinuteShift(now, 1 - lookback);
    seq(|minutes|, i requires 0 <= i < |minutes| => (minutes[i], collection[i]))
  }

  /** `p.split(":")[0]`: the text before the first ':'. */
  function BeforeColon(s: string): (r: string)
    ensures |r| <= |s| && r == s[..|r|]
    ensures ':' !in r
    ensures |r| < |s| ==> s[|r|] == ':'
  {
    if s == [] || s[0] == ':' then [] else [s[0]] + BeforeColon(s[1..])
  }

  /** The equipment items of a site: the prefixes of the discovered ids. */
  function Equipment(ids: set<string>): (items: set<string>)
    ensures forall id :: id in ids ==> BeforeColon(id) in items
    ensures forall e :: e in items ==> ':' !in e
    ensures forall e :: e in items ==> exists id :: id in ids && e == BeforeColon(id)
  {
    set id | id in ids :: BeforeColon(id)
  }
}

=== FILE: names.dfy ===
/** The human-readable name given to a newly created output series:
    `translate_to_a_name` splits an external id on ':' and '_', keeps the
    first segment as it is, title-cases every later segment and joins the
    segments with single spaces. Case mapping covers ASCII letters only. */
module Names {

  predicate IsSeparator(c: char) { c == ':' || c == '_' }

  predicate IsLetter(c: char) { 'a' <= c <= 'z' || 'A' <= c <= 'Z' }

  function ToUpper(c: char): char
  {
    if 'a' <= c <= 'z' then (c as int - 32) as char else c
  }

  function ToLower(c: char): char
  {
    if 'A' <= c <= 'Z' then (c as int + 32) as char else c
  }

  /** `str.title()` on one character: a letter is upper-cased when the
      previous character of the segment is not a letter and lower-cased
      when it is; every other character is kept. */
  function TitleChar(c: char, afterLetter: bool): char
  {
    if !IsLetter(c) then c
    else if afterLetter then ToLower(c)
    else ToUpper(c)
  }

  /** `re.split(":|_", text)`: the maximal separator-free pieces, one more
      than there are separators. */
  function Split(text: string): (segs: seq<string>)
    ensures |segs| >= 1
    ensures forall i, j :: 0 <= i < |segs| && 0 <= j < |segs[i]| ==> !IsSeparator(segs[i][j])
  {
    if |text| == 0 then [""]
    else
      var rest := Split(text[1..]);
      if IsSeparator(text[0]) then [""] + rest
      else [[text[0]] + rest[0]] + rest[1..]
  }

  function TitleFrom(seg: string, afterLetter: bool): string
  {
    if seg == [] then []
    else [TitleChar(seg[0], afterLetter)] + TitleFrom(seg[1..], IsLetter(seg[0]))
  }

  /** `str.title()` on one segment. */
  function Title(seg: string): string
  {
    TitleFrom(seg, false)
  }

  function TitleAll(segs: seq<string>): seq<string>
  {
    if segs == [] then [] else [Title(segs[0])] + TitleAll(segs[1..])
  }

  /** `" ".join(segs)`. */
  function JoinWithSpaces(segs: seq<string>): string
    requires |segs| >= 1
  {
    if |segs| == 1 then segs[0] else segs[0] + " " + JoinWithSpaces(segs[1..])
  }

  /** tools.translate_to_a_name, structured as the source writes it. */
  function TranslateToAName(text: string): string
  {
    var segs := Split(text);
    JoinWithSpaces([segs[0]] + TitleAll(segs[1..]))
  }

  /** An independent, character-by-character reading of the same transform:
      separators become spaces, characters of the first segment are copied,
      characters of later segments are title-cased. */
  function Scan(text: string, inFirst: bool, afterLetter: bool): string
  {
    if text == [] then []
    else if IsSeparator(text[0]) then [' '] + Scan(text[1..], false, false)
    else if inFirst then [text[0]] + Scan(text[1..], true, false)
    else [TitleChar(text[0], afterLetter)] + Scan(text[1..], false, IsLetter(text[0]))
  }

  function NameScan(text: string): string
  {
    Scan(text, true, false)
  }

  /** Every later segment contributes a space and its title-cased text. */
  function JoinRest(segs: seq<string>): string
  {
    if segs == [] then [] else " " + Title(segs[0]) + JoinRest(segs[1..])
  }

  lemma {:induction false} JoinFirstThenRest(first: string, rest: seq<string>)
    ensures JoinWithSpaces([first] + TitleAll(rest)) == first + JoinRest(rest)
    decreases rest
  {
    if rest != [] {
      JoinFirstThenRest(Title(rest[0]), rest[1..]);
      assert [first] + TitleAll(rest) == [first] + ([Title(rest[0])] + TitleAll(rest[1..]));
      assert ([first] + TitleAll(rest))[1..] == [Title(rest[0])] + TitleAll(rest[1..]);
    }
  }

  /** Scanning after a separator title-cases the first piece and then
      handles each later piece as a joined-in segment. */
  lemma {:induction false} ScanLater(s: string, afterLetter: bool)
    ensures Scan(s, false, afterLetter) == TitleFrom(Split(s)[0], afterLetter) + JoinRest(Split(s)[1..])
  {
    if s != [] {
      var rest := Split(s[1..]);
      if IsSeparator(s[0]) {
        ScanLater(s[1..], false);
        assert Split(s)[1..] == rest;
      } else {
        ScanLater(s[1..], IsLetter(s[0]));
        assert Split(s)[0] == [s[0]] + rest[0];
        assert Split(s)[1..] == rest[1..];
        assert ([s[0]] + rest[0])[1..] == rest[0];
      }
    }
  }

  lemma {:induction false} ScanFirst(s: string)
    ensures Scan(s, true, false) == Split(s)[0] + JoinRest(Split(s)[1..])
  {
    if s != [] {
      var rest := Split(s[1..]);
      if IsSeparator(s[0]) {
        ScanLater(s[1..], false);
        assert Split(s)[1..] == rest;
      } else {
        ScanFirst(s[1..]);
        assert Split(s)[0] == [s[0]] + rest[0];
        assert Split(s)[1..] == rest[1..];
      }
    }
  }

  /** The split/title/join pipeline of the source equals the character scan. */
  lemma TranslateToANameIsScan(text: string)
    ensures TranslateToAName(text) == NameScan(text)
  {
    var segs := Split(text);
    JoinFirstThenRest(segs[0], segs[1..]);
    ScanFirst(text);
  }

  lemma {:induction false} ScanShape(text: string, inFirst: bool, afterLetter: bool)
    ensures |Scan(text, inFirst, afterLetter)| == |text|
    ensures forall k :: 0 <= k < |text| ==> !IsSeparator(Scan(text, inFirst, afterLetter)[k])
    ensures forall k :: 0 <= k < |text| && IsSeparator(text[k]) ==> Scan(text, inFirst, afterLetter)[k] == ' '
  {
    if text != [] {
      var next := if IsSeparator(text[0]) || inFirst then false else IsLetter(text[0]);
      var nextFirst := inFirst && !IsSeparator(text[0]);
      ScanShape(text[1..], nextFirst, next);
      var r := Scan(text, inFirst, afterLetter);
      assert r[1..] == Scan(text[1..], nextFirst, next);
      forall k | 0 <= k < |text|
        ensures !IsSeparator(r[k])
        ensures IsSeparator(text[k]) ==> r[k] == ' '
      {
        if k > 0 {
          assert r[k] == r[1..][k - 1];
          assert text[k] == text[1..][k - 1];
        }
      }
    }
  }

  /** The name has as many characters as the id, contains no ':' or '_',
      and has a space wherever the id has a separator. */
  lemma NameShape(text: string)
    ensures |TranslateToAName(text)| == |text|
    ensures forall k :: 0 <= k < |text| ==> !IsSeparator(TranslateToAName(text)[k])
    ensures forall k :: 0 <= k < |text| && IsSeparator(text[k]) ==> TranslateToAName(text)[k] == ' '
  {
    TranslateToANameIsScan(text);
    ScanShape(text, true, false);
  }

  /** The first segment is copied verbatim, and when a separator follows it
      the rest is each later segment title-cased behind a single space. */
  lemma NameKeepsFirstSegment(text: string)
    ensures TranslateToAName(text) == Split(text)[0] + JoinRest(Split(text)[1..])
    ensures |Split(text)[0]| <= |TranslateToAName(text)|
    ensures TranslateToAName(text)[..|Split(text)[0]|] == Split(text)[0]
  {
    var segs := Split(text);
    JoinFirstThenRest(segs[0], segs[1..]);
  }

  predicate SeparatorBefore(text: string, k: int)
    requires 0 <= k <= |text|
  {
    exists j :: 0 <= j < k && IsSeparator(text[j])
  }

  lemma {:induction false} ScanAt(text: string, inFirst: bool, afterLetter: bool, k: nat)
    requires k < |text|
    ensures |Scan(text, inFirst, afterLetter)| == |text|
    ensures Scan(text, inFirst, afterLetter)[k] ==
      if IsSeparator(text[k]) then ' '
      else if inFirst && !SeparatorBefore(text, k) then text[k]
      else TitleChar(text[k], if k == 0 then afterLetter else IsLetter(text[k - 1]))
  {
    ScanShape(text, inFirst, afterLetter);
    if k > 0 {
      var next := if IsSeparator(text[0]) || inFirst then false else IsLetter(text[0]);
      var nextFirst := inFirst && !IsSeparator(text[0]);
      ScanAt(text[1..], nextFirst, next, k - 1);
      assert Scan(text, inFirst, afterLetter)[k] == Scan(text[1..], nextFirst, next)[k - 1];
      assert text[1..][k - 1] == text[k];
      if k > 1 {
        assert text[1..][k - 2] == text[k - 1];
      }
      if SeparatorBefore(text[1..], k - 1) {
        var j :| 0 <= j < k - 1 && IsSeparator(text[1..][j]);
        assert IsSeparator(text[j + 1]);
      }
      if SeparatorBefore(text, k) && !IsSeparator(text[0]) {
        var j :| 0 <= j < k && IsSeparator(text[j]);
        assert IsSeparator(text[1..][j - 1]);
      }
    }
  }

  /** Character by character: separators become spaces, characters before
      the first separator are copied, and a letter after it is upper-cased
      exactly when the character before it is not a letter (lower-cased
      otherwise); other characters are kept. */
  lemma NameAt(text: string, k: nat)
    requires k < |text|
    ensures |TranslateToAName(text)| == |text|
    ensures TranslateToAName(text)[k] ==
      if IsSeparator(text[k]) then ' '
      else if !SeparatorBefore(text, k) then text[k]
      else TitleChar(text[k], IsLetter(text[k - 1]))
  {
    TranslateToANameIsScan(text);
    ScanAt(text, true, false, k);
  }
}

=== FILE: samples.dfy ===
/** Timestamps, samples and the minute arithmetic shared by the OEE pipeline.
    Timestamps are integer milliseconds since the epoch; values are reals. */
module Samples {

  /** One (timestamp, value) pair as returned by a datapoints query. */
  datatype Sample = Sample(ts: int, value: real)

  const MINUTE_MS: int := 60000

  /** Flooring a timestamp to its minute, as `Arrow.floor("minutes")` does. */
  function FloorMinute(t: int): (r: int)
    ensures r % MINUTE_MS == 0
    ensures r <= t < r + MINUTE_MS
  {
    t - t % MINUTE_MS
  }

  /** The floor is the only minute boundary in the minute holding `t`. */
  lemma FloorMinuteUnique(t: int, m: int)
    requires m % MINUTE_MS == 0 && m <= t < m + MINUTE_MS
    ensures FloorMinute(t) == m
  {
    var f := FloorMinute(t);
    assert (m - f) % MINUTE_MS == 0;
    assert -MINUTE_MS < m - f < MINUTE_MS;
  }

  /** Shifting by whole minutes commutes with flooring. */
  lemma FloorMinuteShift(t: int, k: int)
    ensures FloorMinute(t + k * MINUTE_MS) == FloorMinute(t) + k * MINUTE_MS
  {
    var f := FloorMinute(t) + k * MINUTE_MS;
    assert f % MINUTE_MS == 0;
    FloorMinuteUnique(t + k * MINUTE_MS, f);
  }

  /** Python's `range(lo, hi, 60_000)`: every whole minute step from `lo`
      that stays below `hi`. */
  function MinuteRange(lo: int, hi: int): (r: seq<int>)
    ensures forall k :: 0 <= k < |r| ==> r[k] == lo + k * MINUTE_MS
    ensures forall k :: 0 <= k < |r| ==> r[k] < hi
    ensures lo + |r| * MINUTE_MS >= hi
    ensures |r| == if hi <= lo then 0 else (hi - lo + MINUTE_MS - 1) / MINUTE_MS
  {
    var n := if hi <= lo then 0 else (hi - lo + MINUTE_MS - 1) / MINUTE_MS;
    seq(n, k requires 0 <= k < n => lo + k * MINUTE_MS)
  }

  /** Timestamps never decrease along the sequence. */
  predicate Sorted(s: seq<Sample>)
  {
    forall i, j :: 0 <= i < j < |s| ==> s[i].ts <= s[j].ts
  }

  /** Timestamps strictly increase along the sequence. */
  predicate StrictlyIncreasing(s: seq<Sample>)
  {
    forall i, j :: 0 <= i < j < |s| ==> s[i].ts < s[j].ts
  }

  /** Places `x` before the first sample whose timestamp is not smaller. */
  function Insert(x: Sample, s: seq<Sample>): seq<Sample>
  {
    if s == [] then [x]
    else if x.ts <= s[0].ts then [x] + s
    else [s[0]] + Insert(x, s[1..])
  }

  /** Inserting adds exactly one sample, and nothing else. */
  lemma {:induction false} InsertElements(x: Sample, s: seq<Sample>)
    ensures multiset(Insert(x, s)) == multiset(s) + multiset{x}
    ensures |Insert(x, s)| == |s| + 1
    ensures forall i :: 0 <= i < |Insert(x, s)| ==> Insert(x, s)[i] == x || Insert(x, s)[i] in s
  {
    if s != [] && x.ts > s[0].ts {
      InsertElements(x, s[1..]);
      assert s == [s[0]] + s[1..];
    }
  }

  /** Inserting into a sorted sequence keeps it sorted. */
  lemma {:induction false} InsertSorted(x: Sample, s: seq<Sample>)
    requires Sorted(s)
    ensures Sorted(Insert(x, s))
  {
    if s != [] && x.ts > s[0].ts {
      InsertSorted(x, s[1..]);
      InsertElements(x, s[1..]);
      var rest := Insert(x, s[1..]);
      assert Insert(x, s) == [s[0]] + rest;
      assert forall i :: 0 <= i < |rest| ==> s[0].ts <= rest[i].ts;
    }
  }

  /** `sorted(pairs, key=lambda p: p[0])`: a stable sort by timestamp. */
  function SortByTs(s: seq<Sample>): seq<Sample>
  {
    if s == [] then [] else Insert(s[0], SortByTs(s[1..]))
  }

  /** The sort returns the same samples, in timestamp order. */
  lemma {:induction false} SortByTsSpec(s: seq<Sample>)
    ensures Sorted(SortByTs(s))
    ensures multiset(SortByTs(s)) == multiset(s)
    ensures |SortByTs(s)| == |s|
  {
    if s != [] {
      var rest := SortByTs(s[1..]);
      SortByTsSpec(s[1..]);
      InsertSorted(s[0], rest);
      InsertElements(s[0], rest);
      assert SortByTs(s) == Insert(s[0], rest);
      assert s == [s[0]] + s[1..];
      assert multiset(s) == multiset(s[1..]) + multiset{s[0]};
    }
  }

  /** Sorting a sequence that is already in timestamp order changes nothing. */
  lemma {:induction false} SortSortedIsIdentity(s: seq<Sample>)
    requires Sorted(s)
    ensures SortByTs(s) == s
  {
    if s != [] {
      SortSortedIsIdentity(s[1..]);
      SortByTsSpec(s[1..]);
      assert SortByTs(s[1..]) == s[1..];
      if |s| > 1 {
        assert s[0].ts <= s[1].ts;
      }
      assert s == [s[0]] + s[1..];
    }
  }

  /** The value column of a list of pairs (numpy `array[:, 1]`). */
  function Values(s: seq<Sample>): (r: seq<real>)
    ensures |r| == |s|
    ensures forall i :: 0 <= i < |s| ==> r[i] == s[i].value
  {
    seq(|s|, i requires 0 <= i < |s| => s[i].value)
  }
}

=== FILE: streamer.dfy ===
/** The front-fill loop of the REST extractor: a Streamer holds the
    series to poll and an upload queue, and `_extract_timeseries` walks the
    look-back window up to `to_time` in contiguous chunks of at most
    `min(3600, lookback_min)` minutes, queueing every series the API
    returns for each chunk. */
module Streamer {
  import opened Samples

  /** The longest chunk of one API query, in minutes. */
  const MAX_QUERY_MINUTES: int := 3600

  /** What `get_oee_timeseries_datapoints(id, start, end)` returns: the
      datapoints of each series the API associates with `id`, in the
      order of the returned dict. */
  type Response = seq<(string, seq<Sample>)>

  /** The API, as an oracle from (external id, start, end) to a response. */
  type Api = (string, int, int) -> Response

  function Min(a: int, b: int): int
  {
    if a <= b then a else b
  }

  /** `int(1.5 * len(timeseries_list))`, truncated. */
  function TargetIterationTime(n: nat): (r: nat)
    ensures r as real <= 1.5 * n as real < r as real + 1.0
  {
    (3 * n) / 2
  }

  /** The (start, end) pairs the loop of `_extract_timeseries` queries,
      from `fromTime` up to `toTime`, each chunk at most `step` long. A step of zero
      or less only arises with an empty window (see LookbackQueries), where
      the loop makes no query. */
  function QueryIntervals(fromTime: int, toTime: int, step: int): seq<(int, int)>
    decreases toTime - fromTime
  {
    if fromTime >= toTime || step <= 0 then []
    else [(fromTime, Min(toTime, fromTime + step))] + QueryIntervals(Min(toTime, fromTime + step), toTime, step)
  }

  /** Everything queued for the chunks, in query order. */
  function Enqueued(api: Api, id: string, chunks: seq<(int, int)>): Response
  {
    if chunks == [] then [] else api(id, chunks[0].0, chunks[0].1) + Enqueued(api, id, chunks[1..])
  }

  /** The chunks `q` tile [fromTime, toTime): the first starts at `fromTime`, the last
      ends at `toTime`, each starts where the previous one ended, and each is
      non-empty and at most `step` long. */
  predicate Contiguous(q: seq<(int, int)>, fromTime: int, toTime: int, step: int)
  {
    && (|q| > 0 ==> q[0].0 == fromTime && q[|q| - 1].1 == toTime)
    && (forall i :: 0 <= i < |q| ==> q[i].0 < q[i].1 <= q[i].0 + step)
    && (forall i :: 0 <= i < |q| - 1 ==> q[i].1 == q[i + 1].0)
  }

  /** The chunks cover [fromTime, toTime) exactly: the first starts at `fromTime`, the
      last ends at `toTime`, each starts where the previous one ended, and each
      is non-empty and at most `step` long. */
  lemma {:induction false} QueryIntervalsCover(fromTime: int, toTime: int, step: int)
    requires step > 0
    ensures fromTime < toTime <==> |QueryIntervals(fromTime, toTime, step)| > 0
    ensures Contiguous(QueryIntervals(fromTime, toTime, step), fromTime, toTime, step)
    decreases toTime - fromTime
  {
    if fromTime < toTime {
      var req := Min(toTime, fromTime + step);
      QueryIntervalsCover(req, toTime, step);
      var q, rest := QueryIntervals(fromTime, toTime, step), QueryIntervals(req, toTime, step);
      assert q == [(fromTime, req)] + rest;
      assert forall i :: 1 <= i < |q| ==> q[i] == rest[i - 1];
    }
  }

  /** Every chunk but the last is exactly `step` long, so the number of
      chunks n is the least with n * step >= toTime - fromTime. */
  lemma {:induction false} QueryIntervalsCount(fromTime: int, toTime: int, step: int)
    requires step > 0 && fromTime < toTime
    ensures var n := |QueryIntervals(fromTime, toTime, step)|;
      (n - 1) * step < toTime - fromTime <= n * step
    decreases toTime - fromTime
  {
    var req := Min(toTime, fromTime + step);
    if req < toTime {
      QueryIntervalsCount(req, toTime, step);
      var m := |QueryIntervals(req, toTime, step)|;
      assert |QueryIntervals(fromTime, toTime, step)| == m + 1;
      assert (m + 1) * step == m * step + step;
    }
  }

  /** A look-back of at most 3600 minutes is fetched in one query over the
      whole window; a look-back of zero or less makes no query at all. */
  lemma LookbackQueries(toTime: int, lookbackMin: int)
    ensures lookbackMin <= 0 ==>
      QueryIntervals(toTime - lookbackMin * MINUTE_MS, toTime, Min(MAX_QUERY_MINUTES, lookbackMin) * MINUTE_MS) == []
    ensures 0 < lookbackMin <= MAX_QUERY_MINUTES ==>
      QueryIntervals(toTime - lookbackMin * MINUTE_MS, toTime, Min(MAX_QUERY_MINUTES, lookbackMin) * MINUTE_MS)
        == [(toTime - lookbackMin * MINUTE_MS, toTime)]
  {
    if 0 < lookbackMin <= MAX_QUERY_MINUTES {
      var fromTime, step := toTime - lookbackMin * MINUTE_MS, lookbackMin * MINUTE_MS;
      assert Min(toTime, fromTime + step) == toTime;
      assert QueryIntervals(toTime, toTime, step) == [];
    }
  }

  lemma EnqueuedStep(api: Api, id: string, fromTime: int, toTime: int, step: int)
    requires step > 0 && fromTime < toTime
    ensures Enqueued(api, id, QueryIntervals(fromTime, toTime, step)) ==
      api(id, fromTime, Min(toTime, fromTime + step)) + Enqueued(api, id, QueryIntervals(Min(toTime, fromTime + step), toTime, step))
  {
    var q := QueryIntervals(fromTime, toTime, step);
    assert q[0] == (fromTime, Min(toTime, fromTime + step));
    assert q[1..] == QueryIntervals(Min(toTime, fromTime + step), toTime, step);
  }

  class Streamer {
    /** Seconds each iteration should take: 1.5 s per series, truncated. */
    const targetIterationTime: int
    /** The datapoints handed to the upload queue, in the order added. */
    var uploadQueue: Response
    const api: Api
    /** `config.frontfill.lookback_min`. */
    const lookbackMin: int
    /** The external ids of the series to poll. */
    const timeseriesList: seq<string>
    var timeseriesSeenSet: set<string>

    /** `Streamer.__init__`: stores the arguments and starts with an empty
        set of seen series. */
    constructor (queue: Response, api: Api, timeseriesList: seq<string>, lookbackMin: int)
      ensures targetIterationTime == TargetIterationTime(|timeseriesList|)
      ensures uploadQueue == queue && this.api == api
      ensures this.timeseriesList == timeseriesList && this.lookbackMin == lookbackMin
      ensures timeseriesSeenSet == {}
    {
      targetIterationTime := TargetIterationTime(|timeseriesList|);
      uploadQueue := queue;
      this.api := api;
      this.lookbackMin := lookbackMin;
      this.timeseriesList := timeseriesList;
      timeseriesSeenSet := {};
    }

    /** `_extract_timeseries` with `to_time` given: query the chunks of
        [to_time - lookback_min, to_time) in order and append every returned
        series to the upload queue. */
    method ExtractTimeseries(id: string, toTime: int)
      modifies this
      ensures uploadQueue == old(uploadQueue) + Enqueued(api, id,
        QueryIntervals(toTime - lookbackMin * MINUTE_MS, toTime, Min(MAX_QUERY_MINUTES, lookbackMin) * MINUTE_MS))
      ensures timeseriesSeenSet == old(timeseriesSeenSet)
    {
      var fromTime := toTime - lookbackMin * MINUTE_MS;
      var singleQueryLookback := Min(MAX_QUERY_MINUTES, lookbackMin);
      var step := singleQueryLookback * MINUTE_MS;
      ghost var all := Enqueued(api, id, QueryIntervals(fromTime, toTime, step));
      while fromTime < toTime
        invariant step > 0 || fromTime >= toTime
        invariant uploadQueue + Enqueued(api, id, QueryIntervals(fromTime, toTime, step)) == old(uploadQueue) + all
        invariant timeseriesSeenSet == old(timeseriesSeenSet)
        decreases toTime - fromTime
      {
        var reqTime := Min(toTime, fromTime + step);
        var datapointsDict := api(id, fromTime, reqTime);
        EnqueuedStep(api, id, fromTime, toTime, step);
        ghost var before := uploadQueue;
        for k := 0 to |datapointsDict|
          invariant uploadQueue == before + datapointsDict[..k]
          invariant timeseriesSeenSet == old(timeseriesSeenSet)
        {
          uploadQueue := uploadQueue + [datapointsDict[k]];
          assert datapointsDict[..k + 1] == datapointsDict[..k] + [datapointsDict[k]];
        }
        assert datapointsDict[..|datapointsDict|] == datapointsDict;
        fromTime := reqTime;
      }
    }
  }
}

=== FILE: upsert.dfy ===
/** Creating missing output series and inserting datapoints
    (`insert_datapoints` in tools.py). The time-series store is modelled as
    a set of series descriptors plus the sequence of datapoint records that
    were appended to it; the store keeps external ids unique. */
module Upsert {
  import Names

  /** A series descriptor: `TimeSeries(external_id, name, metadata={"type": typ}, data_set_id)`. */
  datatype Series = Series(externalId: string, name: string, typ: string, dataSetId: int)

  /** One element of the batch handed to `insert_multiple`:
      `{"externalId": ..., "datapoints": [(timestamp, value), ...]}`. */
  datatype Record = Record(externalId: string, datapoints: seq<(int, real)>)

  /** No two descriptors share an external id. */
  predicate UniqueIds(ss: set<Series>)
  {
    forall a, b :: a in ss && b in ss && a.externalId == b.externalId ==> a == b
  }

  function IdsOf(ss: set<Series>): set<string>
  {
    set s | s in ss :: s.externalId
  }

  /** `time_series.list(data_set_ids=[dataSetId], metadata={"type": typ})`,
      reduced to the external ids it returns. */
  function ListedIds(ss: set<Series>, dataSetId: int, typ: string): set<string>
  {
    set s | s in ss && s.dataSetId == dataSetId && s.typ == typ :: s.externalId
  }

  /** The ids referenced by the batch. */
  function ReferencedIds(records: seq<Record>): set<string>
  {
    set i | 0 <= i < |records| :: records[i].externalId
  }

  /** `missing_ext_ids`: the referenced ids that are not listed. */
  function MissingIds(records: seq<Record>, known: set<string>): (missing: set<string>)
    ensures forall id :: id in missing <==> id in ReferencedIds(records) && id !in known
  {
    set i | 0 <= i < |records| && records[i].externalId !in known :: records[i].externalId
  }

  /** `timeseries_list`: one new descriptor per missing id, named by
      `translate_to_a_name`, typed `typ` and placed in the data set. */
  function NewSeries(missing: set<string>, typ: string, dataSetId: int): (created: set<Series>)
    ensures IdsOf(created) == missing
    ensures UniqueIds(created)
    ensures forall s :: s in created ==>
      s.name == Names.TranslateToAName(s.externalId) && s.typ == typ && s.dataSetId == dataSetId
  {
    var created := set id | id in missing :: Series(id, Names.TranslateToAName(id), typ, dataSetId);
    assert forall id :: id in missing ==> Series(id, Names.TranslateToAName(id), typ, dataSetId) in created;
    created
  }

  /** After the missing series are created, every referenced id is listed
      under the data set and type, so a second run finds nothing missing. */
  lemma CreatedSeriesAreListed(ss: set<Series>, records: seq<Record>, typ: string, dataSetId: int)
    ensures var created := NewSeries(MissingIds(records, ListedIds(ss, dataSetId, typ)), typ, dataSetId);
      && ListedIds(ss + created, dataSetId, typ) ==
           ListedIds(ss, dataSetId, typ) + MissingIds(records, ListedIds(ss, dataSetId, typ))
      && ReferencedIds(records) <= ListedIds(ss + created, dataSetId, typ)
      && MissingIds(records, ListedIds(ss + created, dataSetId, typ)) == {}
  {
    var known := ListedIds(ss, dataSetId, typ);
    var missing := MissingIds(records, known);
    var created := NewSeries(missing, typ, dataSetId);
    var after := ListedIds(ss + created, dataSetId, typ);
    forall id | id in missing
      ensures id in after
    {
      var s :| s in created && s.externalId == id;
    }
    assert after == known + missing;
  }

  /** Whether `insert_datapoints` goes through on a store holding `ss`:
      none of the ids it must create is already taken. */
  predicate Accepts(ss: set<Series>, records: seq<Record>, typ: string, dataSetId: int)
  {
    MissingIds(records, ListedIds(ss, dataSetId, typ)) !! IdsOf(ss)
  }

  /** The series after `insert_datapoints`: the missing ones are added when
      the call goes through, and nothing changes otherwise. */
  function SeriesAfter(ss: set<Series>, records: seq<Record>, typ: string, dataSetId: int): set<Series>
  {
    if Accepts(ss, records, typ, dataSetId) then
      ss + NewSeries(MissingIds(records, ListedIds(ss, dataSetId, typ)), typ, dataSetId)
    else ss
  }

  /** A call that goes through adds exactly the missing ids and keeps the
      ids unique. */
  lemma AcceptedSeries(ss: set<Series>, records: seq<Record>, typ: string, dataSetId: int)
    requires UniqueIds(ss) && Accepts(ss, records, typ, dataSetId)
    ensures UniqueIds(SeriesAfter(ss, records, typ, dataSetId))
    ensures IdsOf(SeriesAfter(ss, records, typ, dataSetId)) ==
      IdsOf(ss) + MissingIds(records, ListedIds(ss, dataSetId, typ))
  {
    var missing := MissingIds(records, ListedIds(ss, dataSetId, typ));
    var created := NewSeries(missing, typ, dataSetId);
    assert forall x :: x in ss ==> x.externalId in IdsOf(ss);
    assert forall x :: x in created ==> x.externalId in IdsOf(created);
    assert IdsOf(ss + created) == IdsOf(ss) + IdsOf(created);
  }

  /** The store: its series descriptors and every record inserted so far. */
  class Store {
    var series: set<Series>
    var inserted: seq<Record>

    ghost predicate Valid()
      reads this
    {
      UniqueIds(series)
    }

    function Ids(): set<string>
      reads this
    {
      IdsOf(series)
    }

    constructor ()
      ensures Valid()
      ensures series == {} && inserted == []
    {
      series := {};
      inserted := [];
    }

    /** `time_series.list(...)` over the current descriptors. */
    function List(dataSetId: int, typ: string): set<string>
      reads this
    {
      ListedIds(series, dataSetId, typ)
    }

    /** `time_series.create(batch)`: all or nothing; it fails when an id of
        the batch is already taken or two descriptors share an id. */
    method Create(batch: set<Series>) returns (ok: bool)
      requires Valid()
      modifies this
      ensures Valid()
      ensures ok <==> UniqueIds(batch) && IdsOf(batch) !! old(Ids())
      ensures series == if ok then old(series) + batch else old(series)
      ensures inserted == old(inserted)
    {
      ok := UniqueIds(batch) && IdsOf(batch) !! Ids();
      if ok {
        assert forall s :: s in series ==> s.externalId in IdsOf(series);
        assert forall s :: s in batch ==> s.externalId in IdsOf(batch);
        series := series + batch;
      }
    }

    /** `time_series.data.insert_multiple(records)`: all or nothing; it
        fails when a record names an id the store does not hold. */
    method InsertMultiple(records: seq<Record>) returns (ok: bool)
      modifies this
      ensures ok <==> ReferencedIds(records) <= old(Ids())
      ensures inserted == if ok then old(inserted) + records else old(inserted)
      ensures series == old(series)
    {
      ok := ReferencedIds(records) <= Ids();
      if ok {
        inserted := inserted + records;
      }
    }
  }

  /** tools.insert_datapoints: list the ids under the data set and type,
      create the missing ones (only when there are any), then insert the
      whole batch in one call. `ok` is false where the store would raise. */
  method InsertDatapoints(store: Store, records: seq<Record>, typ: string, dataSetId: int) returns (ok: bool)
    requires store.Valid()
    modifies store
    ensures store.Valid()
    ensures old(store.series) <= store.series
    ensures ok <==> MissingIds(records, old(store.List(dataSetId, typ))) !! old(store.Ids())
    ensures ok ==> (store.series ==
      old(store.series) + NewSeries(MissingIds(records, old(store.List(dataSetId, typ))), typ, dataSetId))
    ensures ok ==> store.Ids() == old(store.Ids()) + MissingIds(records, old(store.List(dataSetId, typ)))
    ensures ok ==> store.inserted == old(store.inserted) + records
    ensures ok ==> ReferencedIds(records) <= store.List(dataSetId, typ)
    ensures !ok ==> store.series == old(store.series) && store.inserted == old(store.inserted)
    ensures MissingIds(records, old(store.List(dataSetId, typ))) == {} ==> store.series == old(store.series)
    ensures ok == Accepts(old(store.series), records, typ, dataSetId)
    ensures store.series == SeriesAfter(old(store.series), records, typ, dataSetId)
  {
    var known := store.List(dataSetId, typ);
    var missing := MissingIds(records, known);
    var created := NewSeries(missing, typ, dataSetId);
    CreatedSeriesAreListed(store.series, records, typ, dataSetId);
    if missing != {} {
      var created_ok := store.Create(created);
      if !created_ok {
        return false;
      }
    }
    assert ReferencedIds(records) <= known + missing;
    assert IdsOf(store.series) == IdsOf(old(store.series)) + missing;
    ok := store.InsertMultiple(records);
  }

  /** `insert_datapoints` is idempotent on the series: when a first call
      with a batch succeeds, a second call with the same batch succeeds as
      well, creates no series and only appends the batch once more. */
  method InsertTwiceCreatesNothing(store: Store, records: seq<Record>, typ: string, dataSetId: int)
    returns (first: bool, second: bool, between: set<Series>)
    requires store.Valid()
    modifies store
    ensures first ==> second
    ensures first ==> between == store.series
    ensures first ==> store.inserted == old(store.inserted) + records + records
  {
    first := InsertDatapoints(store, records, typ, dataSetId);
    between := store.series;
    second := InsertDatapoints(store, records, typ, dataSetId);
  }
}

=== FILE: wrappers.dfy ===
/** Failure-carrying wrappers shared by the model: an optional value and a
    result that is either a value or the error the source would raise. */
module Wrappers {

  datatype Option<+T> = None | Some(value: T)

  datatype Result<+T, +E> = Success(value: T) | Failure(error: E)
}
